=== FILE: README.md ===
# M-PESA agent ledger — a Dafny model

This project models the agent side of a Django M-PESA application. An active
agent registers a customer, which creates a user, a zero-balance M-PESA account
and a phone line for the customer's national ID. The agent can check an ID
before registering, adjust their float against the system account, and make a
customer's initial deposit out of the float. The model also covers:

- the forms whose cleaned data these views read: date of birth, PIN, float
  amount and direction, deposit amount;
- the loan-ceiling computation of the loan form;
- the validators for Kenyan IDs and phone numbers;
- the five-active-lines rule in `PhoneLine.save`.

Modules, in dependency order:

- `Wrappers` holds `Option` and `Result`.
- `Seqs` holds `.first()`, `.count()` and column sums over tables held as
  sequences.
- `Money` handles amounts. Stored amounts are integer cents. A submitted
  decimal is a coefficient and a number of places. `quantize(Decimal('0.01'))`
  rounds half to even.
- `Models` holds the entities, the validators and `PhoneLine.save`.
- `Forms` holds the forms and the loan ceiling.
- `Store` holds the database as one sequence per table, the unique and
  not-null constraints, `get_or_create`, the money held (`TotalMoney`) and the
  well-formedness predicate `Valid`.
- `Views` holds the four views.
- `Properties` holds the lemmas that relate views to the invariants and to
  each other.

How the views are modelled:

- Each view is a pure function from the database to its committed state.
- Anything raised inside `transaction.atomic()` rolls back, so an `Err` from
  `RegisterCustomer` or `InitialDeposit` means nothing changed.
- `agent_float` can return early inside its atomic block. That return commits
  the system account that `get_or_create` may just have made, so this view
  returns a `Reply` that carries the committed database alongside the outcome.
- A row's primary key is its index in its table.
- The random uuid, the account-number draws and `hash_pin` are parameters.

Where the code differs from the project's own description, the model follows
the code:

- `objects.create` runs no field validators, so `register_customer` never
  applies `phone_regex` or `validate_kenyan_id`.
- `User.id_number` is unique. So a second registration for an ID that
  already has a user always fails. Registration alone therefore never reaches
  the five-line cap, and `verify_customer_id` reports `can_register` even when
  registration is bound to fail.
- `agent_float` writes the type `'FLOAT'`, which `Transaction.TRANSACTION_TYPES`
  does not list. It is modelled as `FloatAdjustment`.
- With no superuser, `get_or_create(user=None)` violates the not-null owner
  column.

## Model

| member | source | states |
|---|---|---|
| Money.Quantize | mpesa_application/forms.py:126 | for at most two places the result is the exact cent value; for more, the cent value within half a cent, a tie going to the even neighbour |
| Money.RoundHalfEven | mpesa_application/forms.py:149 | the rounded quotient is within half a unit of `n/m`, and a tie goes to the even neighbour |
| Money.QuantizeFromCents | mpesa_application/forms.py:149 | quantizing the two-place decimal of a stored amount gives that amount back |
| Models.IsKenyanId | mpesa_application/models.py:42-44 | an ID is accepted exactly when it has 7 or 8 characters, all digits |
| Models.IsDigitString | mpesa_application/models.py:43 | `isdigit` holds exactly for a non-empty string of digits |
| Models.IsKenyanPhone | mpesa_application/models.py:47-50 | a phone is accepted exactly when it is twelve digits starting "254", or '+' followed by such twelve digits |
| Models.PhoneRegexAsWritten | mpesa_application/models.py:47-50 | the regex as written accepts exactly the described format, and that format followed by one final newline |
| Models.PhoneRegexAcceptsTrailingNewline | mpesa_application/models.py:48 | "254712345678\n" passes the regex as written but is not a valid phone |
| Models.SavePhoneLine | mpesa_application/models.py:121-132 | a new line is refused when its ID already has five active lines; otherwise the row is appended (or, for an existing key, replaced), provided the phone is unique |
| Models.NewLineKeepsCap | mpesa_application/models.py:121-132 | saving new lines keeps every ID at five active lines or fewer |
| Models.NewLineCountsOnce | mpesa_application/models.py:122-132 | saving a new active line adds exactly one to its ID's active count |
| Models.UpdateCanExceedCap | mpesa_application/models.py:128-130 | the cap binds only new rows: re-activating a saved line can give an ID a sixth active line |
| Forms.Age | mpesa_application/forms.py:44 | the age is the number of birthdays reached: that anniversary is on or before today and the next one is after it |
| Forms.AgeMeansAnniversaryReached | mpesa_application/forms.py:44 | the tuple-comparison age is at least n exactly when the n-th birthday is on or before today |
| Forms.CleanDateOfBirth | mpesa_application/forms.py:41-49 | a date of birth is accepted exactly when the 18th birthday is on or before today, and is returned unchanged |
| Forms.AccountFormErrors | mpesa_application/forms.py:53-85 | a format error for each malformed field; a mismatch exactly when both fields are well formed and differ; a weak-PIN error exactly when the PIN is well formed and weak and no mismatch was raised; no other error |
| Forms.AccountFormValidIff | mpesa_application/forms.py:53-85 | the account form is valid exactly for a four-digit PIN, confirmed identically, that is not weak |
| Forms.MismatchHidesWeakness | mpesa_application/forms.py:73-83 | when both PINs are well formed but differ, the mismatch is the only error and the weakness check is not reached |
| Forms.WeakPinCharacterised | mpesa_application/forms.py:77-83 | the weak PINs are 1234, 4321 and the four-digit strings of one repeated digit |
| Forms.CustomerFormValid | mpesa_application/forms.py:6-49 | a valid registration form names a customer at least 18 years old, a national ID of one to eight characters and a non-empty phone |
| Forms.CleanAmountField | mpesa_application/forms.py:102-111 | a decimal field accepts at most two places, at most eight integer digits (below 10^8) and no value below its minimum, and returns the amount unchanged |
| Forms.ParseDirection | mpesa_application/forms.py:97-100 | the choice field accepts exactly "increase" and "decrease" |
| Forms.CleanFloatAmount | mpesa_application/forms.py:119-126 | a non-positive amount is refused; a positive two-place amount becomes its exact positive cent value |
| Forms.AgentFloatFormClean | mpesa_application/forms.py:95-126 | the float form is valid exactly for a two-place amount from 1.00 to below 10^8 and a valid direction; the cleaned amount is the exact cent value and the direction matches the choice |
| Forms.CleanDepositAmount | mpesa_application/forms.py:141-149 | an amount below 50.00 is refused; otherwise the exact cent value, at least 5000, is returned |
| Forms.InitialDepositFormClean | mpesa_application/forms.py:128-149 | the deposit form is valid exactly for a two-place amount from 50.00 to below 10^8, cleaned to its exact cent value |
| Forms.LastMatchingTier | mpesa_application/forms.py:194-196 | the chosen tier's threshold is met, no later tier's is, and there is none exactly when no threshold is met |
| Forms.GetMaxLoan | mpesa_application/forms.py:186-198 | with no account the ceiling is 0; otherwise it is the loan of the last tier in list order whose threshold the balance meets, or 0; either way it is 0 or one of the listed loans |
| Forms.LastTierIsHighestMet | mpesa_application/forms.py:194-196 | with ascending thresholds, the chosen tier has the highest threshold the balance meets |
| Forms.MaxLoanMonotone | mpesa_application/forms.py:193-198 | with loans that do not decrease along the list and are not negative, a larger balance never gets a smaller ceiling |
| Store.InsertUser | mpesa_application/models.py:55-68 | a user is inserted exactly when the username, phone and ID number are all new (nulls never collide) |
| Store.InsertUserKeepsUsersUnique | mpesa_application/models.py:55-68 | the insert succeeds exactly when adding the user keeps usernames, phone numbers and ID numbers unique |
| Store.AppendAgentTxnKeepsOneToOne | mpesa_application/models.py:174 | appending an agent transaction keeps the one-to-one link to transactions exactly when no earlier row names the same transaction |
| Store.InsertAccount | mpesa_application/models.py:77-80 | an account is inserted exactly when its owner has none and its number is new |
| Store.InsertTransaction | mpesa_application/models.py:152-155 | a transaction is refused when the declared not-null sender is missing, and otherwise inserted exactly when its id is new |
| Store.AccountOf | mpesa_application/views.py:297 | the lookup finds an account of that user, and finds none exactly when the user owns none |
| Store.GetOrCreateAccount | mpesa_application/views.py:297-304 | an existing account is returned with nothing written; otherwise a zero-balance account is created exactly when the default number is free |
| Store.FirstSuperuser | mpesa_application/views.py:296 | the result is the first superuser by key, or none when there is no superuser |
| Views.GenerateTransactionId | mpesa_application/views.py:217-219 | the id is "MP" and ten upper-case hex digits that lower-case back to the uuid's first ten |
| Views.GenerateAccountNumber | mpesa_application/views.py:21-28 | the result is the first draw no account already uses, and there is none exactly when every draw is taken |
| Views.RemovePlus | mpesa_application/views.py:94 | the result contains no '+' and is shorter than the input by exactly the number of '+' in it |
| Views.RegisterCustomer | mpesa_application/views.py:61-126 | refuses a registered phone and an ID with five active lines; on success the forms passed, the ID number and username were new, and exactly one user, one zero-balance account under a fresh number and one active phone line were added, with nothing else changed; conversely a request passing every check commits when the username, ID number and phone are new, some draw is free, no account already names the new user's key and no line holds the phone |
| Views.VerifyCustomerId | mpesa_application/views.py:168-192 | only an agent's POST gets an answer; `user_exists` says whether a user holds the ID, `active_lines` is that ID's active count, and `can_register` holds exactly when it is below five |
| Views.CommitFloat | mpesa_application/views.py:290-359 | the system account is `systemUser`'s, and `systemUser` is the agent row's customer; an increase moves the float up by the amount against a FLOAT transaction sent by that account; a decrease the float cannot cover commits that account (opened with number 0000000000, balance 0, active, if it was missing) and nothing else; the recorded transaction carries the given id; a covered decrease needs a nullable sender and moves the float down; any other failure changes nothing; with the system account present or its number free and a fresh id, an increase commits, and so does a covered decrease under a nullable sender |
| Views.AdjustFloat | mpesa_application/views.py:279-364 | the system account is the first superuser's; a decrease larger than the float is refused once that account is available, and the refusal still commits that account; a committed adjustment had an active agent, a valid form and a superuser, moves the float by exactly the cleaned amount in the chosen direction, changes no existing balance (the system account's included), and records one FLOAT transaction, under the generated "MP" id, and one agent row; an agent's valid increase commits when a superuser exists, the system account is present or its number free, and the id is fresh |
| Views.AgentFloat | mpesa_application/views.py:327-344 | as declared, a decrease never succeeds and commits no float change and no ledger row, while a valid increase commits whenever a superuser exists, the system account is present or its number free, and the id is fresh |
| Views.AgentFloatIntended | mpesa_application/views.py:327-348 | with a nullable sender, a committed decrease was covered by the float and leaves it lowered by the amount and non-negative |
| Views.FirstActiveLimit | mpesa_application/views.py:407-410 | the result is the first active DEPOSIT limit by key, or none exactly when there is none |
| Views.LastEight | mpesa_application/views.py:426 | the result is the last eight characters, or the whole string when it is shorter |
| Views.CommitDeposit | mpesa_application/views.py:404-472 | a committed deposit records its transaction under the given id, credits the customer and debits the float by the amount, opens at most the agent's own account, and records one DEPOSIT, its agent row and one SMS notification; it commits whenever the agent's account exists or its number is free and the transaction id is fresh |
| Views.InitialDeposit | mpesa_application/views.py:384-478 | refuses a funded account, a deposit the float cannot cover and an amount outside the first active DEPOSIT limit; a committed deposit's transaction id is "MP" and the uuid's first ten hex digits; a committed deposit had all checks pass and applies exactly the movement above; a request passing every check commits when the agent's account exists or its number is free and the id is fresh |
| Properties.OpeningKeepsBalances | mpesa_application/views.py:297-304 | opening at most one zero-balance account leaves the sum of balances unchanged |
| Properties.DepositConservesMoney | mpesa_application/views.py:458-463 | the deposit adds the amount to the balances and takes it from the floats, so total money is unchanged |
| Properties.DepositLeavesAgentAccount | mpesa_application/views.py:423-463 | the deposit's sender is the agent's own account, whose balance does not move unless the agent deposits into that same account: kept if it existed, 0 if just opened |
| Properties.InitialDepositConservesMoney | mpesa_application/views.py:384-478 | `initial_deposit` neither creates nor destroys money |
| Properties.FloatMovesMoney | mpesa_application/views.py:322-348 | a float adjustment changes no balance and moves total money by exactly the signed amount |
| Properties.FloatIncreaseAddsAmount | mpesa_application/views.py:307-323 | a float increase adds exactly the cleaned amount to the money in the system |
| Properties.FloatCounterpartyIsFirstSuperuser | mpesa_application/views.py:296-358 | a committed float adjustment's sender (increase) or receiver (decrease) is the first superuser's account, and that superuser is the agent row's customer |
| Properties.RefusedDecreaseKeepsMoney | mpesa_application/views.py:327-331 | a decrease refused for want of float moves no money |
| Properties.RegistrationConservesMoney | mpesa_application/views.py:113-119 | registration opens a zero-balance account and leaves total money unchanged |
| Properties.DepositPreservesValid | mpesa_application/views.py:404-472 | a deposit keeps references resolvable, balances, floats and amounts sound, and every unique column unique: usernames, user phones and ID numbers, account owners and numbers, agent users and business numbers, transaction ids, phone-line numbers and the agent-transaction link |
| Properties.FloatPreservesValid | mpesa_application/views.py:290-359 | a float adjustment that leaves the float non-negative keeps the database well formed |
| Properties.RefusedDecreasePreservesValid | mpesa_application/views.py:327-331 | the state committed by a refused decrease is well formed |
| Properties.RegistrationPreservesValid | mpesa_application/views.py:68-126 | registration keeps the database well formed, the new user's username, phone and ID number included |
| Properties.RegistrationKeepsLineCap | mpesa_application/views.py:84-91 | registration never takes an ID past five active lines |
| Properties.IdCheckRefusalIsHonoured | mpesa_application/views.py:179-187 | when the ID check says registration is impossible, registering that ID is refused |
| Properties.IdCheckOverpromisesForKnownId | mpesa_application/views.py:176-187 | when the ID check finds a user with the ID, registering that ID is refused whatever `can_register` says |
| Properties.SecondRegistrationForIdFails | mpesa_application/models.py:57-62 | after one registration, a second one for the same national ID is refused |
| Properties.NonAgentsAreTurnedAway | mpesa_application/views.py:17-18 | every modelled view refuses a user without an active agent profile and changes nothing |
| Properties.RemovePlusAppend | mpesa_application/views.py:94 | removing '+' distributes over concatenation |
| Properties.RemovePlusIdentity | mpesa_application/views.py:94 | removing '+' from a string without one changes nothing |
| Properties.UsernameOfKenyanPhone | mpesa_application/views.py:94 | for a valid phone, the username is the phone without its leading '+': "254" and nine digits |
| Properties.TransactionIdsCollideOnPrefix | mpesa_application/views.py:217-219 | two transaction ids are equal exactly when their uuids share the first ten hex digits |
| Properties.DecreaseFailsAsDeclared | mpesa_application/views.py:334-344 | even a decrease the float covers fails on the not-null sender and commits nothing |
| Properties.DecreaseCommitsAsIntended | mpesa_application/views.py:334-348 | with a nullable sender the same decrease commits and lowers the float by the amount |

## Left out

- GET handling, template rendering, `messages` and redirects are left out. Only the POST paths and their outcomes are modelled.
- `agent_dashboard`, `agent_transactions` and `registration_success` are left out. They are read-only pages.
- The SHA-256 inside `hash_pin` is a parameter. Only the fact that the account stores `hash_pin(pin)` is modelled.
- Randomness is not modelled: the uuid of `generate_transaction_id` and the digit draws of `generate_account_number` are parameters.
- Views.GenerateAccountNumber: a finite list of draws stands in for the unbounded retry loop. When every draw is taken it reports `NoFreshAccountNumber` instead of drawing again.
- Notification delivery, titles, messages and transaction descriptions are free text with no effect on the ledger, so they are left out.
- Form fields are taken as already stripped. Digits are ASCII only, whereas Python's `\d` and `isdigit` accept other Unicode digits.
- `EmailField` syntax checking is left out. The submitted email is never stored.
- Database column widths (`max_length`, `max_digits=12` on balances) are not enforced. Neither is Decimal's 28-digit context precision.
- Money.Quantize: assumes unbounded precision. Python's context limit of 28 significant digits is not modelled.
- `daily_limit`, `UserLimit`, bills, savings and the utility id generator are left out. No modelled view reads them.
- Timestamps, `auto_now` fields and `last_activity` are left out. So are the column defaults of `Transaction` (fee 0, status PENDING): every modelled `create` passes both explicitly.
- Forms.CustomerFormValid: the contract states the age, ID and phone consequences of a valid form; the name and email length limits hold in its definition but are not restated as a contract.
- The `(id_number, phone_number)` pair constraint on phone lines and `UserLimit`'s pair constraint are not modelled separately: the first follows from the unique phone number, and the second belongs to a table left out.
- Concurrency is left out: two requests racing between a check and an insert.
- Models.SavePhoneLine: a row given a key that is not yet in the table is not modelled. Django would insert such a row without the cap check.

## Findings

| source | as written | input that shows it | evidently intended | confidence | as-written member | corrected member |
|---|---|---|---|---|---|---|
| mpesa_application/models.py:48 | `^\+?254\d{9}$` is matched with Python's `re`, whose `$` also matches before a final newline | "254712345678\n" | only "254" and nine digits, optionally after '+', with nothing after them (`\Z`) | low — not executed; form fields strip whitespace before validating | Models.PhoneRegexAsWritten (Models.PhoneRegexAcceptsTrailingNewline) | Models.IsKenyanPhone (Properties.UsernameOfKenyanPhone) |
| mpesa_application/views.py:337 | a float decrease creates a Transaction with `sender=None`, but `sender` is declared NOT NULL (models.py:154) | an active agent with float 500.00 decreasing by 100.00, with a superuser account in place | a decrease that records the transaction with no sender and lowers the float | high — not executed | Views.AgentFloat (Properties.DecreaseFailsAsDeclared) | Views.AgentFloatIntended (Properties.DecreaseCommitsAsIntended) |

=== FILE: forms.dfy ===
/**
 * The input forms in front of the agent views: the customer's age check, the
 * PIN rules of the account form, the amount fields of the float and initial
 * deposit forms, and the tiered loan ceiling of the loan request form.
 */
module Forms {
  import opened Wrappers
  import opened Money
  import opened Models

  datatype FormError =
    | TooManyDecimalPlaces
    | TooManyDigits
    | BelowMinValue
    | NotPositive
    | BelowMinimumDeposit
    | Underage
    | PinFormat
    | ConfirmPinFormat
    | PinMismatch
    | WeakPin
    | InvalidChoice

  // ---------------------------------------------------------------------------
  // Date of birth (CustomerRegistrationForm.clean_date_of_birth)

  /** `(a.month, a.day) < (b.month, b.day)` as Python compares tuples. */
  predicate MonthDayBefore(a: Date, b: Date)
  {
    a.month < b.month || (a.month == b.month && a.day < b.day)
  }

  /** Completed years from `dob` to `today`: the `a`-th birthday has been reached, the next has not. */
  function Age(today: Date, dob: Date): (a: int)
    ensures OnOrBefore(Anniversary(dob, a), today)
    ensures !OnOrBefore(Anniversary(dob, a + 1), today)
  {
    today.year - dob.year - (if MonthDayBefore(today, dob) then 1 else 0)
  }

  /** Calendar order: `a` is on or before `b`, comparing (year, month, day). */
  predicate OnOrBefore(a: Date, b: Date)
  {
    a.year < b.year || (a.year == b.year && (a.month < b.month || (a.month == b.month && a.day <= b.day)))
  }

  /** The `n`-th anniversary of `d` (29 February kept as written). */
  function Anniversary(d: Date, n: int): (r: Date)
  {
    Date(d.year + n, d.month, d.day)
  }

  /** Being at least `n` years old means the `n`-th birthday is today or earlier. */
  lemma AgeMeansAnniversaryReached(today: Date, dob: Date, n: int)
    ensures Age(today, dob) >= n <==> OnOrBefore(Anniversary(dob, n), today)
  {
  }

  const AdultAge: int := 18

  /** `clean_date_of_birth`: the date passes exactly when the 18th birthday has been reached. */
  function CleanDateOfBirth(today: Date, dob: Date): (r: Result<Date, FormError>)
    ensures r.Ok? <==> OnOrBefore(Anniversary(dob, AdultAge), today)
    ensures r.Ok? ==> r.value == dob
    ensures r.Err? ==> r.error == Underage
  {
    AgeMeansAnniversaryReached(today, dob, AdultAge);
    if Age(today, dob) < AdultAge then Err(Underage) else Ok(dob)
  }

  // ---------------------------------------------------------------------------
  // PIN rules (MPesaAccountCreationForm)

  /** The `pin` field: required, four characters long, matching `^\d{4}$`. */
  predicate PinFieldValid(pin: string)
  {
    |pin| == 4 && AllDigits(pin)
  }

  /** The `confirm_pin` field: required and exactly four characters long. */
  predicate ConfirmFieldValid(confirm: string)
  {
    |confirm| == 4
  }

  /** The PINs `clean` refuses as too easy to guess. */
  predicate IsWeakPin(pin: string)
  {
    pin == "1234" || pin == "4321" ||
    pin == "0000" || pin == "1111" || pin == "2222" ||
    pin == "3333" || pin == "4444" || pin == "5555" ||
    pin == "6666" || pin == "7777" || pin == "8888" || pin == "9999"
  }

  /**
   * The errors of the account form: one per failing field, then at most one
   * from `clean`, which sees only the fields that passed and stops at its
   * first `raise`.
   */
  function AccountFormErrors(pin: string, confirm: string): (errs: set<FormError>)
    ensures errs <= {PinFormat, ConfirmPinFormat, PinMismatch, WeakPin}
    ensures PinFormat in errs <==> !PinFieldValid(pin)
    ensures ConfirmPinFormat in errs <==> !ConfirmFieldValid(confirm)
    ensures PinMismatch in errs <==> PinFieldValid(pin) && ConfirmFieldValid(confirm) && pin != confirm
    ensures WeakPin in errs <==> PinFieldValid(pin) && IsWeakPin(pin) && PinMismatch !in errs
  {
    var pinOk := PinFieldValid(pin);
    var confirmOk := ConfirmFieldValid(confirm);
    var fieldErrors := (if pinOk then {} else {PinFormat}) + (if confirmOk then {} else {ConfirmPinFormat});
    var cleanErrors :=
      if pinOk && confirmOk && pin != confirm then {PinMismatch}
      else if pinOk && IsWeakPin(pin) then {WeakPin}
      else {};
    fieldErrors + cleanErrors
  }

  /** The account form is valid exactly for a four-digit PIN, confirmed, that is not weak. */
  lemma AccountFormValidIff(pin: string, confirm: string)
    ensures AccountFormErrors(pin, confirm) == {}
        <==> PinFieldValid(pin) && confirm == pin && !IsWeakPin(pin)
  {
    if AccountFormErrors(pin, confirm) == {} {
      assert PinFormat !in AccountFormErrors(pin, confirm);
      assert ConfirmPinFormat !in AccountFormErrors(pin, confirm);
      assert PinMismatch !in AccountFormErrors(pin, confirm);
      assert WeakPin !in AccountFormErrors(pin, confirm);
    }
  }

  /** A mismatch is reported instead of, not besides, a weak PIN. */
  lemma MismatchHidesWeakness(pin: string, confirm: string)
    requires PinFieldValid(pin) && ConfirmFieldValid(confirm) && pin != confirm
    ensures AccountFormErrors(pin, confirm) == {PinMismatch}
  {
  }

  /** The weak PINs are 1234, 4321, and the four-digit strings with one repeated digit. */
  lemma WeakPinCharacterised(pin: string)
    requires PinFieldValid(pin)
    ensures IsWeakPin(pin) <==> pin == "1234" || pin == "4321" || (pin[1] == pin[0] && pin[2] == pin[0] && pin[3] == pin[0])
  {
    if pin[1] == pin[0] && pin[2] == pin[0] && pin[3] == pin[0] {
      var c := pin[0];
      assert pin == [c, c, c, c];
      assert IsDigit(c);
    }
  }

  // ---------------------------------------------------------------------------
  // Customer registration form

  /** The fields of `CustomerRegistrationForm` and `MPesaAccountCreationForm`, as submitted. */
  datatype RegistrationInput = RegistrationInput(
    firstName: string,
    lastName: string,
    idNumber: string,
    phone: string,
    email: string,
    dateOfBirth: Date,
    pin: string,
    confirmPin: string)

  /** `CustomerRegistrationForm.is_valid()`: required fields, their maximum lengths and the age check. */
  predicate CustomerFormValid(input: RegistrationInput, today: Date)
    ensures CustomerFormValid(input, today) ==> Age(today, input.dateOfBirth) >= AdultAge
    ensures CustomerFormValid(input, today) ==> 0 < |input.idNumber| <= 8 && 0 < |input.phone|
  {
    && 0 < |input.firstName| <= 30
    && 0 < |input.lastName| <= 30
    && 0 < |input.idNumber| <= 8
    && 0 < |input.phone|
    && 0 < |input.email| <= 50
    && CleanDateOfBirth(today, input.dateOfBirth).Ok?
  }

  // ---------------------------------------------------------------------------
  // Amount fields

  /** `max_digits=10, decimal_places=2` leave at most eight integer digits: amounts below 10^8. */
  const AmountCeiling: Cents := 10_000_000_000

  /** The checks a `DecimalField(max_digits=10, decimal_places=2, min_value=minimum)` applies. */
  function CleanAmountField(amount: Dec, minimum: Cents): (r: Result<Dec, FormError>)
    ensures r.Ok? <==> amount.places <= 2 && Below(amount, AmountCeiling)
                       && !Below(amount, -AmountCeiling + 1) && !Below(amount, minimum)
    ensures r.Ok? ==> r.value == amount
  {
    if amount.places > 2 then Err(TooManyDecimalPlaces)
    else if !Below(amount, AmountCeiling) || Below(amount, -AmountCeiling + 1) then Err(TooManyDigits)
    else if Below(amount, minimum) then Err(BelowMinValue)
    else Ok(amount)
  }

  datatype FloatDirection = Increase | Decrease

  datatype FloatRequest = FloatRequest(amount: Cents, direction: FloatDirection)

  /** The `transaction_type` choice field. */
  function ParseDirection(choice: string): (r: Option<FloatDirection>)
    ensures r == Some(Increase) <==> choice == "increase"
    ensures r == Some(Decrease) <==> choice == "decrease"
    ensures r.None? <==> choice != "increase" && choice != "decrease"
  {
    if choice == "increase" then Some(Increase)
    else if choice == "decrease" then Some(Decrease)
    else None
  }

  /** `AgentFloatForm.clean_amount`: refuse a non-positive amount, else round it to cents. */
  function CleanFloatAmount(amount: Dec): (r: Result<Cents, FormError>)
    ensures r.Ok? <==> amount.coef > 0
    ensures r.Ok? && amount.places <= 2 ==> Denotes(amount, r.value) && r.value > 0
  {
    if amount.coef <= 0 then Err(NotPositive)
    else
      var c := Quantize(amount);
      BelowAgreesWithCents(amount, c, 1);
      Ok(c)
  }

  /** The minimum the float form's amount field declares: 1.00. */
  const MinimumFloatAmount: Cents := 100

  /** `AgentFloatForm.is_valid()` followed by reading its cleaned data. */
  function AgentFloatFormClean(amount: Dec, choice: string): (r: Result<FloatRequest, FormError>)
    ensures r.Ok? <==> amount.places <= 2 && !Below(amount, MinimumFloatAmount) && Below(amount, AmountCeiling)
                       && (choice == "increase" || choice == "decrease")
    ensures r.Ok? ==> Denotes(amount, r.value.amount) && MinimumFloatAmount <= r.value.amount < AmountCeiling
    ensures r.Ok? ==> (r.value.direction == Increase <==> choice == "increase")
  {
    var field := CleanAmountField(amount, MinimumFloatAmount);
    if field.Err? then Err(field.error)
    else
      var cleaned := CleanFloatAmount(amount);
      if cleaned.Err? then
        // the field's minimum of 1.00 already excludes a non-positive amount
        assert false; Err(NotPositive)
      else
        var direction := ParseDirection(choice);
        if direction.None? then Err(InvalidChoice)
        else
          BelowAgreesWithCents(amount, cleaned.value, MinimumFloatAmount);
          BelowAgreesWithCents(amount, cleaned.value, AmountCeiling);
          Ok(FloatRequest(cleaned.value, direction.value))
  }

  /** The smallest initial deposit: 50.00. */
  const MinimumDeposit: Cents := 5000

  /** `InitialDepositForm.clean_amount`: refuse less than 50.00, else round it to cents. */
  function CleanDepositAmount(amount: Dec): (r: Result<Cents, FormError>)
    ensures r.Ok? <==> !Below(amount, MinimumDeposit)
    ensures r.Ok? && amount.places <= 2 ==> Denotes(amount, r.value) && r.value >= MinimumDeposit
  {
    if Below(amount, MinimumDeposit) then Err(BelowMinimumDeposit)
    else
      var c := Quantize(amount);
      BelowAgreesWithCents(amount, c, MinimumDeposit);
      Ok(c)
  }

  /** `InitialDepositForm.is_valid()` followed by reading the cleaned amount. */
  function InitialDepositFormClean(amount: Dec): (r: Result<Cents, FormError>)
    ensures r.Ok? <==> amount.places <= 2 && !Below(amount, MinimumDeposit) && Below(amount, AmountCeiling)
    ensures r.Ok? ==> Denotes(amount, r.value) && MinimumDeposit <= r.value < AmountCeiling
  {
    var field := CleanAmountField(amount, MinimumDeposit);
    if field.Err? then Err(field.error)
    else
      var cleaned := CleanDepositAmount(amount);
      if cleaned.Err? then
        // the field's minimum is the same 50.00
        assert false; Err(BelowMinimumDeposit)
      else
        BelowAgreesWithCents(amount, cleaned.value, AmountCeiling);
        Ok(cleaned.value)
  }

  // ---------------------------------------------------------------------------
  // Loan ceiling (LoanRequestForm.get_max_loan)

  /** The index of the last tier, in list order, whose threshold the balance meets. */
  function LastMatchingTier(balance: Cents, tiers: seq<(Cents, Cents)>): (r: Option<nat>)
    ensures r.Some? ==> r.value < |tiers| && tiers[r.value].0 <= balance
    ensures r.Some? ==> forall j :: r.value < j < |tiers| ==> tiers[j].0 > balance
    ensures r.None? <==> forall j :: 0 <= j < |tiers| ==> tiers[j].0 > balance
  {
    if |tiers| == 0 then None
    else if tiers[|tiers| - 1].0 <= balance then Some(|tiers| - 1)
    else LastMatchingTier(balance, tiers[..|tiers| - 1])
  }

  /** The loan amount of a chosen tier, or 0 when none was chosen. */
  function LoanOfTier(choice: Option<nat>, tiers: seq<(Cents, Cents)>): (loan: Cents)
    requires choice.Some? ==> choice.value < |tiers|
  {
    if choice.None? then 0 else tiers[choice.value].1
  }

  /**
   * `get_max_loan`: 0 without an account; otherwise the loop keeps the loan
   * amount of every tier whose threshold the balance meets, so the last one wins.
   */
  method GetMaxLoan(balance: Option<Cents>, tiers: seq<(Cents, Cents)>) returns (maxLoan: Cents)
    ensures balance.None? ==> maxLoan == 0
    ensures balance.Some? ==> maxLoan == LoanOfTier(LastMatchingTier(balance.value, tiers), tiers)
    ensures maxLoan == 0 || exists i :: 0 <= i < |tiers| && maxLoan == tiers[i].1
  {
    if balance.None? {
      return 0;
    }
    var b := balance.value;
    maxLoan := 0;
    var k := 0;
    while k < |tiers|
      invariant 0 <= k <= |tiers|
      invariant maxLoan == LoanOfTier(LastMatchingTier(b, tiers[..k]), tiers)
    {
      assert tiers[..k + 1][..k] == tiers[..k];
      if b >= tiers[k].0 {
        maxLoan := tiers[k].1;
      }
      k := k + 1;
    }
    assert tiers[..k] == tiers;
  }

  /** Tiers listed by ascending threshold. */
  predicate ThresholdsAscending(tiers: seq<(Cents, Cents)>)
  {
    forall i, j :: 0 <= i < j < |tiers| ==> tiers[i].0 <= tiers[j].0
  }

  /** With ascending thresholds, the chosen tier is one with the highest threshold the balance meets. */
  lemma LastTierIsHighestMet(balance: Cents, tiers: seq<(Cents, Cents)>)
    requires ThresholdsAscending(tiers)
    requires LastMatchingTier(balance, tiers).Some?
    ensures var i := LastMatchingTier(balance, tiers).value;
      forall j :: 0 <= j < |tiers| && tiers[j].0 <= balance ==> tiers[j].0 <= tiers[i].0
  {
  }

  /** When tier amounts never decrease along the list and are not negative, a larger balance never lowers the ceiling. */
  lemma MaxLoanMonotone(b1: Cents, b2: Cents, tiers: seq<(Cents, Cents)>)
    requires b1 <= b2
    requires forall i, j :: 0 <= i < j < |tiers| ==> tiers[i].1 <= tiers[j].1
    requires forall i :: 0 <= i < |tiers| ==> tiers[i].1 >= 0
    ensures LoanOfTier(LastMatchingTier(b1, tiers), tiers) <= LoanOfTier(LastMatchingTier(b2, tiers), tiers)
  {
    var c1 := LastMatchingTier(b1, tiers);
    var c2 := LastMatchingTier(b2, tiers);
    if c1.Some? {
      assert tiers[c1.value].0 <= b2;
      assert c2.Some? && c1.value <= c2.value;
    }
  }
}

=== FILE: models.dfy ===
/**
 * The persistent entities of the M-PESA application and the rules the model
 * layer attaches to them: the national-ID and phone-number validators and the
 * five-active-lines cap in `PhoneLine.save`.
 */
module Models {
  import opened Wrappers
  import opened Seqs
  import opened Money

  // Primary keys: every table is a sequence and a row's key is its index.
  type UserId = nat
  type AccountId = nat
  type AgentId = nat
  type TxnIndex = nat

  datatype Date = Date(year: int, month: int, day: int)

  /** The custom user: username, optional phone and national ID (null for superusers). */
  datatype User = User(
    username: string,
    email: string,
    phone: Option<string>,
    idNumber: Option<string>,
    firstName: string,
    lastName: string,
    dateOfBirth: Option<Date>,
    isVerified: bool,
    isSuperuser: bool)

  /** An M-PESA wallet, one per user. */
  datatype Account = Account(
    owner: UserId,
    number: string,
    balance: Cents,
    isActive: bool,
    pinHash: string)

  /** An agent profile, one per user; `floatBalance` is the agent's float. */
  datatype Agent = Agent(
    user: UserId,
    businessName: string,
    businessNumber: string,
    floatBalance: Cents,
    isActive: bool)

  /** A phone line registered against a national ID. */
  datatype PhoneLine = PhoneLine(idNumber: string, phone: string, isActive: bool)

  /**
   * Transaction types. The declared choices stop at BillPay; the float view
   * also stores 'FLOAT', which `objects.create` does not check against them.
   */
  datatype TxnKind = Deposit | Withdrawal | Transfer | Payment | Airtime | BillPay | FloatAdjustment

  datatype TxnStatus = Pending | Completed | Failed | Reversed

  /** A ledger row. `sender` is an `Option` so that a row with a null sender can be attempted. */
  datatype Transaction = Transaction(
    txId: string,
    kind: TxnKind,
    sender: Option<AccountId>,
    receiver: Option<AccountId>,
    agent: Option<AgentId>,
    amount: Cents,
    fee: Cents,
    status: TxnStatus)

  datatype AgentTxnKind = CustomerDeposit | CustomerWithdrawal | FloatIncrease

  /** The agent-side extension of one transaction. */
  datatype AgentTransaction = AgentTransaction(
    txn: TxnIndex,
    agent: AgentId,
    customer: UserId,
    kind: AgentTxnKind,
    commission: Cents)

  datatype NotificationKind = Sms | InApp | Email

  datatype Notification = Notification(user: UserId, kind: NotificationKind, txn: Option<TxnIndex>)

  /** A per-transaction-type limit; only active rows are consulted. */
  datatype Limit = Limit(kind: TxnKind, minAmount: Cents, maxAmount: Cents, dailyLimit: Cents, isActive: bool)

  /** The database constraints an insert or update can violate (an `IntegrityError`). */
  datatype Constraint =
    | UniqueUsername
    | UniqueUserPhone
    | UniqueUserIdNumber
    | UniqueAccountOwner
    | UniqueAccountNumber
    | NotNullAccountOwner
    | UniqueTransactionId
    | NotNullSender
    | UniqueLinePhone

  // ---------------------------------------------------------------------------
  // Field validators

  predicate IsDigit(c: char)
  {
    '0' <= c <= '9'
  }

  predicate AllDigits(s: string)
  {
    forall i :: 0 <= i < |s| ==> IsDigit(s[i])
  }

  /** `str.isdigit()`: true of a non-empty string of digits. */
  function IsDigitString(s: string): (b: bool)
    ensures b <==> |s| > 0 && AllDigits(s)
  {
    |s| > 0 && IsDigit(s[0]) && (|s| == 1 || IsDigitString(s[1..]))
  }

  /** `validate_kenyan_id`: passes exactly the strings of seven or eight digits. */
  function IsKenyanId(value: string): (ok: bool)
    ensures ok <==> (|value| == 7 || |value| == 8) && AllDigits(value)
  {
    IsDigitString(value) && (|value| == 8 || |value| == 7)
  }

  /** The text after the optional leading `+` of `^\+?`. */
  function StripOptionalPlus(s: string): (t: string)
  {
    if |s| > 0 && s[0] == '+' then s[1..] else s
  }

  /** "254" followed by nine digits and nothing else. */
  predicate IsMsisdn(t: string)
  {
    |t| == 12 && t[..3] == "254" && AllDigits(t[3..])
  }

  /** The phone format the validator's message describes: `+254XXXXXXXXX`, the `+` optional. */
  function IsKenyanPhone(s: string): (ok: bool)
    ensures ok <==> ((|s| == 12 && s[..3] == "254" && AllDigits(s))
                  || (|s| == 13 && s[0] == '+' && s[1..4] == "254" && AllDigits(s[1..])))
  {
    var t := StripOptionalPlus(s);
    MsisdnDigits(t);
    IsMsisdn(t)
  }

  /** A "254"-prefixed string is all digits exactly when its tail is. */
  lemma MsisdnDigits(t: string)
    ensures IsMsisdn(t) <==> |t| == 12 && t[..3] == "254" && AllDigits(t)
  {
    if |t| == 12 && t[..3] == "254" {
      assert forall i :: 0 <= i < 3 ==> t[i] == "254"[i];
      assert forall i :: 3 <= i < |t| ==> t[i] == t[3..][i - 3];
    }
  }

  /**
   * `phone_regex` exactly as written: `re.search(r'^\+?254\d{9}$', s)`. In
   * Python, `$` also matches just before a newline that ends the string, so
   * the described format is accepted both alone and followed by one newline.
   */
  function PhoneRegexAsWritten(s: string): (ok: bool)
    ensures ok <==> IsKenyanPhone(s) || (|s| > 0 && s[|s| - 1] == '\n' && IsKenyanPhone(s[..|s| - 1]))
  {
    var t := StripOptionalPlus(s);
    NewlineAfterPrefix(s);
    IsMsisdn(t) || (|t| == 13 && t[12] == '\n' && IsMsisdn(t[..12]))
  }

  /** Dropping a final character commutes with dropping the optional `+`. */
  lemma NewlineAfterPrefix(s: string)
    ensures (var t := StripOptionalPlus(s);
             (|t| == 13 && t[12] == '\n' && IsMsisdn(t[..12]))
             <==> (|s| > 0 && s[|s| - 1] == '\n' && !IsMsisdn(t) && IsMsisdn(StripOptionalPlus(s[..|s| - 1]))))
  {
    var t := StripOptionalPlus(s);
    if |s| > 1 {
      assert StripOptionalPlus(s[..|s| - 1]) == t[..|t| - 1];
    } else if |s| == 1 {
      assert s[..0] == [];
    }
  }

  // ---------------------------------------------------------------------------
  // PhoneLine.save

  const MaxActiveLines: nat := 5

  predicate IsActiveLineOf(l: PhoneLine, id: string)
  {
    l.idNumber == id && l.isActive
  }

  /** The filter `id_number=id, is_active=True` as a row predicate. */
  function ActiveLineFilter(id: string): PhoneLine -> bool
  {
    (l: PhoneLine) => IsActiveLineOf(l, id)
  }

  /** `PhoneLine.objects.filter(id_number=id, is_active=True).count()` */
  function ActiveLines(lines: seq<PhoneLine>, id: string): (n: nat)
  {
    CountWhere(lines, ActiveLineFilter(id))
  }

  /** No row other than the one at `pk` already holds `phone` (the unique column). */
  predicate PhoneFree(lines: seq<PhoneLine>, phone: string, pk: Option<nat>)
  {
    forall j :: 0 <= j < |lines| && (pk.None? || j != pk.value) ==> lines[j].phone != phone
  }

  datatype SaveError = LineCapReached | Integrity(constraint: Constraint)

  /**
   * `PhoneLine.save`: a new row (no primary key) is refused when its ID already
   * has five active lines; an existing row is saved without the check. The
   * database then enforces the unique phone column.
   */
  function SavePhoneLine(lines: seq<PhoneLine>, line: PhoneLine, pk: Option<nat>): (r: Result<seq<PhoneLine>, SaveError>)
    requires pk.Some? ==> pk.value < |lines|
    ensures pk.None? && ActiveLines(lines, line.idNumber) >= MaxActiveLines ==> r == Err(LineCapReached)
    ensures r.Ok? <==> (pk.None? ==> ActiveLines(lines, line.idNumber) < MaxActiveLines) && PhoneFree(lines, line.phone, pk)
    ensures r.Ok? && pk.None? ==> r.value == lines + [line]
    ensures r.Ok? && pk.Some? ==> r.value == lines[pk.value := line]
  {
    var activeLines := ActiveLines(lines, line.idNumber);
    if pk.None? && activeLines >= MaxActiveLines then Err(LineCapReached)
    else if !PhoneFree(lines, line.phone, pk) then Err(Integrity(UniqueLinePhone))
    else if pk.None? then Ok(lines + [line])
    else Ok(lines[pk.value := line])
  }

  /** Every national ID in the table has at most five active lines. */
  ghost predicate WithinLineCap(lines: seq<PhoneLine>)
  {
    forall id :: ActiveLines(lines, id) <= MaxActiveLines
  }

  // ---------------------------------------------------------------------------
  // Properties of the validators and of PhoneLine.save

  /** A concrete string the regex as written lets through although it is not `+254XXXXXXXXX`. */
  lemma PhoneRegexAcceptsTrailingNewline()
    ensures PhoneRegexAsWritten("254712345678\n")
    ensures !IsKenyanPhone("254712345678\n")
  {
    var s := "254712345678\n";
    assert StripOptionalPlus(s) == s;
    assert s[..12] == "254712345678";
    assert s[..12][..3] == "254";
    assert AllDigits(s[..12][3..]);
  }

  /** Saving a new line never takes an ID past five active lines. */
  lemma {:induction false} NewLineKeepsCap(lines: seq<PhoneLine>, line: PhoneLine)
    requires WithinLineCap(lines)
    requires SavePhoneLine(lines, line, None).Ok?
    ensures WithinLineCap(SavePhoneLine(lines, line, None).value)
  {
    var lines' := lines + [line];
    forall id
      ensures ActiveLines(lines', id) <= MaxActiveLines
    {
      CountAppend(lines, line, ActiveLineFilter(id));
      assert ActiveLines(lines, id) <= MaxActiveLines;
      assert ActiveLineFilter(id)(line) == IsActiveLineOf(line, id);
      if IsActiveLineOf(line, id) {
        assert ActiveLines(lines, line.idNumber) < MaxActiveLines;
      }
    }
  }

  /** Saving a new active line adds exactly one to its ID's active count. */
  lemma NewLineCountsOnce(lines: seq<PhoneLine>, line: PhoneLine)
    requires line.isActive
    requires SavePhoneLine(lines, line, None).Ok?
    ensures ActiveLines(SavePhoneLine(lines, line, None).value, line.idNumber)
         == ActiveLines(lines, line.idNumber) + 1 <= MaxActiveLines
  {
    CountAppend(lines, line, ActiveLineFilter(line.idNumber));
  }

  /**
   * Re-saving an existing row skips the cap, so re-activating a line can give
   * an ID six active lines.
   */
  lemma UpdateCanExceedCap()
    ensures var id := "12345678";
      var lines := [PhoneLine(id, "254700000001", true), PhoneLine(id, "254700000002", true),
                    PhoneLine(id, "254700000003", true), PhoneLine(id, "254700000004", true),
                    PhoneLine(id, "254700000005", true), PhoneLine(id, "254700000006", false)];
      && WithinLineCap(lines)
      && SavePhoneLine(lines, PhoneLine(id, "254700000006", true), Some(5)).Ok?
      && ActiveLines(SavePhoneLine(lines, PhoneLine(id, "254700000006", true), Some(5)).value, id) == 6
  {
    var id := "12345678";
    var lines := [PhoneLine(id, "254700000001", true), PhoneLine(id, "254700000002", true),
                  PhoneLine(id, "254700000003", true), PhoneLine(id, "254700000004", true),
                  PhoneLine(id, "254700000005", true), PhoneLine(id, "254700000006", false)];
    var active := lines[..5];
    var parked := lines[5];
    assert lines == active + [parked];
    CountAll(active, ActiveLineFilter(id));
    CountAppend(active, parked, ActiveLineFilter(id));
    assert ActiveLines(lines, id) == 5;
    forall other
      ensures ActiveLines(lines, other) <= MaxActiveLines
    {
      if other != id {
        assert forall j :: 0 <= j < |lines| ==> !ActiveLineFilter(other)(lines[j]);
      }
    }
    assert WithinLineCap(lines);
    CountUpdate(lines, 5, PhoneLine(id, "254700000006", true), ActiveLineFilter(id));
  }
}

=== FILE: money.dfy ===
/**
 * Exact decimal money. Every amount column is a `DecimalField(decimal_places=2)`,
 * so stored money is a whole number of cents; a submitted amount is a decimal
 * with any number of fraction digits until the form cleans it.
 */
module Money {

  /** A stored amount, in hundredths of a shilling. */
  type Cents = int

  function Pow10(n: nat): (r: nat)
    ensures r >= 1
  {
    if n == 0 then 1 else 10 * Pow10(n - 1)
  }

  lemma {:induction false} Pow10Add(a: nat, b: nat)
    ensures Pow10(a) * Pow10(b) == Pow10(a + b)
  {
    if a > 0 {
      Pow10Add(a - 1, b);
      calc {
        Pow10(a) * Pow10(b);
        (10 * Pow10(a - 1)) * Pow10(b);
        { assert (10 * Pow10(a - 1)) * Pow10(b) == 10 * (Pow10(a - 1) * Pow10(b)); }
        10 * (Pow10(a - 1) * Pow10(b));
        10 * Pow10(a - 1 + b);
      }
    }
  }

  /** A submitted decimal: the number `coef / 10^places`. */
  datatype Dec = Dec(coef: int, places: nat)

  /** `c` cents is exactly the value of `d`. */
  predicate Denotes(d: Dec, c: Cents)
  {
    c * Pow10(d.places) == d.coef * 100
  }

  /** The value of `d` is strictly below `c` cents. */
  predicate Below(d: Dec, c: Cents)
  {
    d.coef * 100 < c * Pow10(d.places)
  }

  /** The decimal `Decimal('x.yz')` written for a number of cents. */
  function FromCents(c: Cents): (d: Dec)
    ensures Denotes(d, c)
  {
    Dec(c, 2)
  }

  /** `n / m` rounded to the nearest integer, ties to the even neighbour. */
  function RoundHalfEven(n: int, m: int): (c: int)
    requires m >= 1
    ensures -m <= 2 * (c * m - n) <= m
    ensures 2 * (c * m - n) == m || 2 * (c * m - n) == -m ==> c % 2 == 0
  {
    var q := n / m;
    var r := n % m;
    var c := if 2 * r < m then q
             else if 2 * r > m then q + 1
             else if q % 2 == 0 then q
             else q + 1;
    RoundingError(n, m, q, r, c);
    c
  }

  /** The rounding error of either neighbour of `n / m`, written without a product of unknowns. */
  lemma RoundingError(n: int, m: int, q: int, r: int, c: int)
    requires m >= 1 && q == n / m && r == n % m
    requires c == q || c == q + 1
    ensures c == q ==> c * m - n == -r
    ensures c == q + 1 ==> c * m - n == m - r
  {
    assert n == q * m + r;
    assert (q + 1) * m == q * m + m;
  }

  /**
   * `amount.quantize(Decimal('0.01'))` under the default decimal context,
   * whose rounding is half to even.
   */
  function Quantize(d: Dec): (c: Cents)
    ensures d.places <= 2 ==> Denotes(d, c)
    ensures d.places > 2 ==> var m: int := Pow10(d.places - 2);
      && -m <= 2 * (c * m - d.coef) <= m
      && (2 * (c * m - d.coef) == m || 2 * (c * m - d.coef) == -m ==> c % 2 == 0)
  {
    if d.places <= 2 then
      Pow10Add(2 - d.places, d.places);
      assert Pow10(2) == 100;
      d.coef * Pow10(2 - d.places)
    else
      RoundHalfEven(d.coef, Pow10(d.places - 2))
  }

  /** Quantizing the decimal written for a stored amount gives that amount back. */
  lemma QuantizeFromCents(c: Cents)
    ensures Quantize(FromCents(c)) == c
  {
  }

  /** Comparing a decimal with a bound in cents agrees with comparing its exact cent value. */
  lemma BelowAgreesWithCents(d: Dec, c: Cents, bound: Cents)
    ensures Denotes(d, c) ==> (Below(d, bound) <==> c < bound)
  {
    if Denotes(d, c) {
      var p := Pow10(d.places);
      assert d.coef * 100 == c * p;
      if c < bound {
        assert c * p < bound * p;
      } else {
        assert c * p >= bound * p;
      }
    }
  }
}

=== FILE: properties.dfy ===
/**
 * Properties that relate several calls or a view to the invariants of the
 * ledger: money is conserved by a deposit and by a registration and moves
 * by exactly the adjusted amount on a float change; every committed state of
 * a view keeps the database well formed; the ID check and registration
 * agree; and the float decrease as declared never succeeds where the
 * intended one does.
 */
module Properties {
  import opened Wrappers
  import opened Seqs
  import opened Money
  import opened Models
  import opened Forms
  import opened Store
  import opened Views

  // ---------------------------------------------------------------------------
  // Money

  /** Opening at most one zero-balance account leaves the sum of balances unchanged. */
  lemma OpeningKeepsBalances(before: seq<Account>, after: seq<Account>)
    requires AccountsKeptOrOneOpened(before, after)
    ensures Sum(after, BalanceOf) == Sum(before, BalanceOf)
  {
    if |after| == |before| {
      assert after == after[..|before|];
    } else {
      assert after == before + [after[|before|]];
      SumAppend(before, after[|before|], BalanceOf);
    }
  }

  /** A committed deposit moves money from the float to the customer: the total is unchanged. */
  lemma DepositConservesMoney(db: Db, db': Db, agent: AgentId, account: AccountId, cents: Cents)
    requires DepositApplied(db, db', agent, account, cents)
    ensures Sum(db'.accounts, BalanceOf) == Sum(db.accounts, BalanceOf) + cents
    ensures Sum(db'.agents, FloatOf) == Sum(db.agents, FloatOf) - cents
    ensures TotalMoney(db') == TotalMoney(db)
  {
    var n := |db.accounts|;
    var mid := db'.accounts[account := db.accounts[account]];
    assert db'.accounts == mid[account := db'.accounts[account]];
    SumUpdate(mid, account, db'.accounts[account], BalanceOf);
    if |db'.accounts| == n {
      assert mid == db.accounts;
    } else {
      assert mid == db.accounts + [db'.accounts[n]];
      SumAppend(db.accounts, db'.accounts[n], BalanceOf);
    }
    SumUpdate(db.agents, agent, db'.agents[agent], FloatOf);
  }

  /**
   * The deposit's sender is the agent's own account, and its balance does
   * not move: it keeps its balance if it existed, and is opened at 0
   * otherwise, unless the agent is depositing into that very account.
   */
  lemma DepositLeavesAgentAccount(db: Db, db': Db, agent: AgentId, account: AccountId, cents: Cents)
    requires DepositApplied(db, db', agent, account, cents)
    ensures var s := db'.transactions[|db.transactions|].sender.value;
      && db'.accounts[s].owner == db.agents[agent].user
      && (s < |db.accounts| && s != account ==> db'.accounts[s].balance == db.accounts[s].balance)
      && (s >= |db.accounts| ==> db'.accounts[s].balance == 0)
  {
  }

  /** `initial_deposit` neither creates nor destroys money. */
  lemma InitialDepositConservesMoney(db: Db, agent: AgentId, account: AccountId, amount: Dec, uuidHex: string)
    requires IsUuidHex(uuidHex)
    requires InitialDeposit(db, agent, account, amount, uuidHex).Ok?
    ensures TotalMoney(InitialDeposit(db, agent, account, amount, uuidHex).value) == TotalMoney(db)
  {
    var cents := InitialDepositFormClean(amount).value;
    DepositConservesMoney(db, InitialDeposit(db, agent, account, amount, uuidHex).value, agent, account, cents);
  }

  /** A committed float adjustment by `delta` changes the total by exactly `delta`, all of it in the float. */
  lemma FloatMovesMoney(db: Db, db': Db, agent: AgentId, systemUser: UserId, delta: int)
    requires FloatApplied(db, db', agent, systemUser, delta)
    ensures Sum(db'.accounts, BalanceOf) == Sum(db.accounts, BalanceOf)
    ensures TotalMoney(db') == TotalMoney(db) + delta
  {
    OpeningKeepsBalances(db.accounts, db'.accounts);
    SumUpdate(db.agents, agent, db'.agents[agent], FloatOf);
  }

  /** A float increase through `agent_float` adds exactly the cleaned amount to the system. */
  lemma FloatIncreaseAddsAmount(db: Db, agent: AgentId, amount: Dec, uuidHex: string)
    requires IsUuidHex(uuidHex)
    requires AgentFloat(db, agent, amount, "increase", uuidHex).outcome.Ok?
    ensures TotalMoney(AgentFloat(db, agent, amount, "increase", uuidHex).db)
         == TotalMoney(db) + AgentFloatFormClean(amount, "increase").value.amount
  {
    FloatMovesMoney(db, AgentFloat(db, agent, amount, "increase", uuidHex).db, agent,
                    FirstSuperuser(db).value, AgentFloatFormClean(amount, "increase").value.amount);
  }

  /** The counterparty of a committed float adjustment is the first superuser's account, in either direction. */
  lemma FloatCounterpartyIsFirstSuperuser(db: Db, agent: AgentId, amount: Dec, choice: string, uuidHex: string,
                                          column: SenderColumn)
    requires IsUuidHex(uuidHex)
    requires AdjustFloat(db, agent, amount, choice, uuidHex, column).outcome.Ok?
    ensures var db' := AdjustFloat(db, agent, amount, choice, uuidHex, column).db;
            var t := db'.transactions[|db.transactions|];
            var a := if t.sender.Some? then t.sender else t.receiver;
            && FirstSuperuser(db).Some?
            && a.Some? && a.value < |db'.accounts| && db'.accounts[a.value].owner == FirstSuperuser(db).value
            && db'.agentTxns[|db.agentTxns|].customer == FirstSuperuser(db).value
  {
  }

  /** A float decrease refused for want of float commits no money movement, only possibly the system account. */
  lemma RefusedDecreaseKeepsMoney(db: Db, agent: AgentId, amount: Dec, choice: string, uuidHex: string, column: SenderColumn)
    requires IsUuidHex(uuidHex)
    requires AdjustFloat(db, agent, amount, choice, uuidHex, column).outcome == Err(InsufficientFloat)
    ensures TotalMoney(AdjustFloat(db, agent, amount, choice, uuidHex, column).db) == TotalMoney(db)
  {
    OpeningKeepsBalances(db.accounts, AdjustFloat(db, agent, amount, choice, uuidHex, column).db.accounts);
  }

  /** Registering a customer opens a zero-balance account: the total is unchanged. */
  lemma RegistrationConservesMoney(db: Db, agent: AgentId, input: RegistrationInput, today: Date,
                                   draws: seq<string>, hashPin: string -> string)
    requires RegisterCustomer(db, agent, input, today, draws, hashPin).Ok?
    ensures TotalMoney(RegisterCustomer(db, agent, input, today, draws, hashPin).value.0) == TotalMoney(db)
  {
    var (db', a) := RegisterCustomer(db, agent, input, today, draws, hashPin).value;
    assert db'.accounts == db.accounts + [db'.accounts[a]];
    SumAppend(db.accounts, db'.accounts[a], BalanceOf);
  }

  // ---------------------------------------------------------------------------
  // Access

  /** Every view turns away a user without an active agent profile and changes nothing. */
  lemma NonAgentsAreTurnedAway(db: Db, agent: AgentId, input: RegistrationInput, today: Date,
                               draws: seq<string>, hashPin: string -> string, isPost: bool,
                               idNumber: Option<string>, account: AccountId, amount: Dec,
                               choice: string, uuidHex: string, column: SenderColumn)
    requires IsUuidHex(uuidHex)
    requires agent >= |db.agents| || !db.agents[agent].isActive
    ensures RegisterCustomer(db, agent, input, today, draws, hashPin) == Err(NotAgent)
    ensures VerifyCustomerId(db, agent, isPost, idNumber) == Err(NotAgent)
    ensures AdjustFloat(db, agent, amount, choice, uuidHex, column) == Reply(db, Err(NotAgent))
    ensures InitialDeposit(db, agent, account, amount, uuidHex) == Err(NotAgent)
  {
  }

  // ---------------------------------------------------------------------------
  // Well-formedness of committed states

  /** A deposit keeps every reference resolvable, every amount sound and every unique column unique. */
  lemma DepositPreservesValid(db: Db, db': Db, agent: AgentId, account: AccountId, cents: Cents)
    requires Valid(db)
    requires DepositApplied(db, db', agent, account, cents)
    requires cents > 0 && db.agents[agent].floatBalance >= cents
    ensures Valid(db')
  {
    var n := |db.accounts|;
    var m := |db.transactions|;
    forall i | 0 <= i < |db'.accounts|
      ensures db'.accounts[i].owner < |db'.users| && db'.accounts[i].balance >= 0
    {
      if i < n && i != account {
        assert db'.accounts[i] == db.accounts[i];
      }
    }
    forall i, j | 0 <= i < j < |db'.accounts|
      ensures db'.accounts[i].owner != db'.accounts[j].owner
      ensures db'.accounts[i].number != db'.accounts[j].number
    {
      if j == n {
        assert db'.accounts[i].owner == db.accounts[i].owner && db'.accounts[i].number == db.accounts[i].number;
      } else {
        assert db'.accounts[j].owner == db.accounts[j].owner && db'.accounts[j].number == db.accounts[j].number;
        assert db'.accounts[i].owner == db.accounts[i].owner && db'.accounts[i].number == db.accounts[i].number;
      }
    }
    forall i | 0 <= i < |db'.transactions|
      ensures db'.transactions[i].amount > 0 && db'.transactions[i].fee >= 0
      ensures db'.transactions[i].sender.Some? ==> db'.transactions[i].sender.value < |db'.accounts|
      ensures db'.transactions[i].receiver.Some? ==> db'.transactions[i].receiver.value < |db'.accounts|
      ensures db'.transactions[i].agent.Some? ==> db'.transactions[i].agent.value < |db'.agents|
    {
      if i < m {
        assert db'.transactions[i] == db'.transactions[..m][i];
      }
    }
    forall i, j | 0 <= i < j < |db'.transactions|
      ensures db'.transactions[i].txId != db'.transactions[j].txId
    {
      assert db'.transactions[i] == db'.transactions[..m][i];
      if j < m {
        assert db'.transactions[j] == db'.transactions[..m][j];
      }
    }
    forall i | 0 <= i < |db'.agentTxns|
      ensures db'.agentTxns[i].txn < |db'.transactions|
      ensures db'.agentTxns[i].agent < |db'.agents|
      ensures db'.agentTxns[i].customer < |db'.users|
    {
      if i < |db.agentTxns| {
        assert db'.agentTxns[i] == db.agentTxns[i];
      }
    }
    forall i | 0 <= i < |db'.notifications|
      ensures db'.notifications[i].user < |db'.users|
      ensures db'.notifications[i].txn.Some? ==> db'.notifications[i].txn.value < |db'.transactions|
    {
      if i < |db.notifications| {
        assert db'.notifications[i] == db.notifications[i];
      }
    }
    forall i | 0 <= i < |db'.agents|
      ensures db'.agents[i].user < |db'.users| && db'.agents[i].floatBalance >= 0
    {
    }
  }

  /** A committed float adjustment that leaves the float non-negative keeps the database well formed. */
  lemma FloatPreservesValid(db: Db, db': Db, agent: AgentId, systemUser: UserId, delta: int)
    requires Valid(db)
    requires FloatApplied(db, db', agent, systemUser, delta)
    requires delta != 0 && db.agents[agent].floatBalance + delta >= 0
    ensures Valid(db')
  {
    var n := |db.accounts|;
    var m := |db.transactions|;
    assert db'.accounts[..n] == db.accounts;
    forall i | 0 <= i < |db'.accounts|
      ensures db'.accounts[i].owner < |db'.users| && db'.accounts[i].balance >= 0
    {
      if i < n {
        assert db'.accounts[i] == db.accounts[i];
      }
    }
    forall i, j | 0 <= i < j < |db'.accounts|
      ensures db'.accounts[i].owner != db'.accounts[j].owner
      ensures db'.accounts[i].number != db'.accounts[j].number
    {
      assert db'.accounts[i] == db.accounts[i];
      if j < n {
        assert db'.accounts[j] == db.accounts[j];
      }
    }
    forall i | 0 <= i < |db'.transactions|
      ensures db'.transactions[i].amount > 0 && db'.transactions[i].fee >= 0
      ensures db'.transactions[i].sender.Some? ==> db'.transactions[i].sender.value < |db'.accounts|
      ensures db'.transactions[i].receiver.Some? ==> db'.transactions[i].receiver.value < |db'.accounts|
      ensures db'.transactions[i].agent.Some? ==> db'.transactions[i].agent.value < |db'.agents|
    {
      if i < m {
        assert db'.transactions[i] == db'.transactions[..m][i];
      }
    }
    forall i, j | 0 <= i < j < |db'.transactions|
      ensures db'.transactions[i].txId != db'.transactions[j].txId
    {
      assert db'.transactions[i] == db'.transactions[..m][i];
      if j < m {
        assert db'.transactions[j] == db'.transactions[..m][j];
      }
    }
    forall i | 0 <= i < |db'.agentTxns|
      ensures db'.agentTxns[i].txn < |db'.transactions|
      ensures db'.agentTxns[i].agent < |db'.agents|
      ensures db'.agentTxns[i].customer < |db'.users|
    {
      if i < |db.agentTxns| {
        assert db'.agentTxns[i] == db'.agentTxns[..|db.agentTxns|][i];
      }
    }
    forall i | 0 <= i < |db'.agents|
      ensures db'.agents[i].user < |db'.users| && db'.agents[i].floatBalance >= 0
    {
    }
    NewAgentTxnKeepsOneToOne(db, db', m);
  }

  /**
   * An agent transaction appended for the transaction just recorded keeps the
   * one-to-one link, as every earlier one points at an earlier transaction.
   */
  lemma NewAgentTxnKeepsOneToOne(db: Db, db': Db, m: nat)
    requires ReferencesResolve(db) && AgentTxnsOneToOne(db.agentTxns) && m == |db.transactions|
    requires |db'.agentTxns| == |db.agentTxns| + 1 && db'.agentTxns[..|db.agentTxns|] == db.agentTxns
    requires db'.agentTxns[|db.agentTxns|].txn == m
    ensures AgentTxnsOneToOne(db'.agentTxns)
  {
    var x := db'.agentTxns[|db.agentTxns|];
    assert db'.agentTxns == db.agentTxns + [x];
    AppendAgentTxnKeepsOneToOne(db, x);
  }

  /** A float decrease refused for want of float leaves a well-formed database well formed. */
  lemma RefusedDecreasePreservesValid(db: Db, agent: AgentId, amount: Dec, choice: string, uuidHex: string,
                                      column: SenderColumn)
    requires IsUuidHex(uuidHex)
    requires Valid(db)
    requires AdjustFloat(db, agent, amount, choice, uuidHex, column).outcome == Err(InsufficientFloat)
    ensures Valid(AdjustFloat(db, agent, amount, choice, uuidHex, column).db)
  {
    var db' := AdjustFloat(db, agent, amount, choice, uuidHex, column).db;
    var n := |db.accounts|;
    assert db'.accounts[..n] == db.accounts;
    forall i | 0 <= i < |db'.accounts|
      ensures db'.accounts[i].owner < |db'.users| && db'.accounts[i].balance >= 0
    {
      if i < n {
        assert db'.accounts[i] == db.accounts[i];
      }
    }
    forall i, j | 0 <= i < j < |db'.accounts|
      ensures db'.accounts[i].owner != db'.accounts[j].owner
      ensures db'.accounts[i].number != db'.accounts[j].number
    {
      assert db'.accounts[i] == db.accounts[i];
      if j < n {
        assert db'.accounts[j] == db.accounts[j];
      }
    }
  }

  /** Registration keeps the database well formed. */
  lemma RegistrationPreservesValid(db: Db, agent: AgentId, input: RegistrationInput, today: Date,
                                   draws: seq<string>, hashPin: string -> string)
    requires Valid(db)
    requires RegisterCustomer(db, agent, input, today, draws, hashPin).Ok?
    ensures Valid(RegisterCustomer(db, agent, input, today, draws, hashPin).value.0)
  {
    var (db', a) := RegisterCustomer(db, agent, input, today, draws, hashPin).value;
    InsertUserKeepsUsersUnique(db, NewCustomer(input));
    var n := |db.accounts|;
    forall i | 0 <= i < |db'.accounts|
      ensures db'.accounts[i].owner < |db'.users| && db'.accounts[i].balance >= 0
    {
      if i < n {
        assert db'.accounts[i] == db'.accounts[..n][i];
      }
    }
    forall i, j | 0 <= i < j < |db'.accounts|
      ensures db'.accounts[i].owner != db'.accounts[j].owner
      ensures db'.accounts[i].number != db'.accounts[j].number
    {
      assert db'.accounts[i] == db'.accounts[..n][i];
      if j < n {
        assert db'.accounts[j] == db'.accounts[..n][j];
      }
    }
    var k := |db.phoneLines|;
    forall i, j | 0 <= i < j < |db'.phoneLines|
      ensures db'.phoneLines[i].phone != db'.phoneLines[j].phone
    {
      assert db'.phoneLines[i] == db.phoneLines[i];
      if j < k {
        assert db'.phoneLines[j] == db.phoneLines[j];
      }
    }
    forall i | 0 <= i < |db'.agentTxns|
      ensures db'.agentTxns[i].customer < |db'.users|
    {
    }
    forall i | 0 <= i < |db'.notifications|
      ensures db'.notifications[i].user < |db'.users|
    {
    }
  }

  /** Registration alone never takes a national ID past five active lines. */
  lemma RegistrationKeepsLineCap(db: Db, agent: AgentId, input: RegistrationInput, today: Date,
                                 draws: seq<string>, hashPin: string -> string)
    requires WithinLineCap(db.phoneLines)
    requires RegisterCustomer(db, agent, input, today, draws, hashPin).Ok?
    ensures WithinLineCap(RegisterCustomer(db, agent, input, today, draws, hashPin).value.0.phoneLines)
  {
    var line := PhoneLine(input.idNumber, input.phone, true);
    assert SavePhoneLine(db.phoneLines, line, None).Ok?;
    NewLineKeepsCap(db.phoneLines, line);
  }

  // ---------------------------------------------------------------------------
  // verify_customer_id against register_customer

  /** When the ID check says registration is not possible, registering with that ID is refused. */
  lemma IdCheckRefusalIsHonoured(db: Db, agent: AgentId, input: RegistrationInput, today: Date,
                                 draws: seq<string>, hashPin: string -> string)
    requires VerifyCustomerId(db, agent, true, Some(input.idNumber)).Ok?
    requires !VerifyCustomerId(db, agent, true, Some(input.idNumber)).value.canRegister
    ensures RegisterCustomer(db, agent, input, today, draws, hashPin).Err?
  {
    assert ActiveLines(db.phoneLines, input.idNumber) >= MaxActiveLines;
  }

  /**
   * The ID check promises registration from the line count alone, but a
   * second customer for an ID already held by a user is always refused, so
   * the promise is broken whenever `user_exists` is true.
   */
  lemma IdCheckOverpromisesForKnownId(db: Db, agent: AgentId, input: RegistrationInput, today: Date,
                                      draws: seq<string>, hashPin: string -> string)
    requires VerifyCustomerId(db, agent, true, Some(input.idNumber)).Ok?
    requires VerifyCustomerId(db, agent, true, Some(input.idNumber)).value.userExists
    ensures RegisterCustomer(db, agent, input, today, draws, hashPin).Err?
  {
    var j :| 0 <= j < |db.users| && db.users[j].idNumber == Some(input.idNumber);
    assert !UserIdNumberFree(db.users, Some(input.idNumber));
  }

  /** After one registration, a second for the same national ID is refused, whatever else it submits. */
  lemma SecondRegistrationForIdFails(db: Db, agent: AgentId, input: RegistrationInput, input2: RegistrationInput,
                                     today: Date, draws: seq<string>, draws2: seq<string>, hashPin: string -> string)
    requires RegisterCustomer(db, agent, input, today, draws, hashPin).Ok?
    requires input2.idNumber == input.idNumber
    ensures RegisterCustomer(RegisterCustomer(db, agent, input, today, draws, hashPin).value.0,
                             agent, input2, today, draws2, hashPin).Err?
  {
    var db' := RegisterCustomer(db, agent, input, today, draws, hashPin).value.0;
    assert db'.users[|db.users|] == NewCustomer(input);
    assert !UserIdNumberFree(db'.users, Some(input2.idNumber));
  }

  // ---------------------------------------------------------------------------
  // Identifiers

  /** Removing '+' from a string without one changes nothing. */
  lemma {:induction false} RemovePlusIdentity(s: string)
    requires forall i :: 0 <= i < |s| ==> s[i] != '+'
    ensures RemovePlus(s) == s
  {
    if |s| > 0 {
      RemovePlusIdentity(s[1..]);
      assert s == [s[0]] + s[1..];
    }
  }

  /** Removing '+' works piece by piece: it distributes over concatenation. */
  lemma {:induction false} RemovePlusAppend(a: string, b: string)
    ensures RemovePlus(a + b) == RemovePlus(a) + RemovePlus(b)
  {
    if |a| > 0 {
      assert (a + b)[0] == a[0];
      assert (a + b)[1..] == a[1..] + b;
      RemovePlusAppend(a[1..], b);
    } else {
      assert a + b == b;
    }
  }

  /** A phone number the validator accepts gives the username "254" and nine more digits. */
  lemma UsernameOfKenyanPhone(phone: string)
    requires IsKenyanPhone(phone)
    ensures RemovePlus(phone) == StripOptionalPlus(phone)
    ensures |RemovePlus(phone)| == 12 && RemovePlus(phone)[..3] == "254" && AllDigits(RemovePlus(phone))
  {
    var t := StripOptionalPlus(phone);
    assert forall i :: 0 <= i < |t| ==> IsDigit(t[i]);
    RemovePlusIdentity(t);
    if |phone| == 13 {
      assert phone == ['+'] + t;
    }
  }

  /** Two transaction ids are equal exactly when their uuids agree on the first ten hex digits. */
  lemma TransactionIdsCollideOnPrefix(h1: string, h2: string)
    requires IsUuidHex(h1) && IsUuidHex(h2)
    ensures GenerateTransactionId(h1) == GenerateTransactionId(h2) <==> h1[..10] == h2[..10]
  {
  }

  // ---------------------------------------------------------------------------
  // The float decrease, as declared and as intended

  /** The conditions under which a float decrease has everything it needs to commit. */
  predicate DecreaseCanCommit(db: Db, agent: AgentId, amount: Dec, uuidHex: string)
    requires IsUuidHex(uuidHex)
  {
    && IsActiveAgent(db, agent)
    && AgentFloatFormClean(amount, "decrease").Ok?
    && FirstSuperuser(db).Some?
    && AccountOf(db, FirstSuperuser(db).value).Some?
    && db.agents[agent].floatBalance >= AgentFloatFormClean(amount, "decrease").value.amount
    && TxIdFree(db.transactions, GenerateTransactionId(uuidHex))
  }

  /** As declared, even a fully covered decrease fails on the not-null `sender` and commits nothing. */
  lemma DecreaseFailsAsDeclared(db: Db, agent: AgentId, amount: Dec, uuidHex: string)
    requires IsUuidHex(uuidHex)
    requires DecreaseCanCommit(db, agent, amount, uuidHex)
    ensures AgentFloat(db, agent, amount, "decrease", uuidHex) == Reply(db, Err(DbIntegrity(NotNullSender)))
  {
    assert AgentFloatFormClean(amount, "decrease").value.direction == Decrease;
  }

  /** With a nullable `sender`, the same decrease commits and lowers the float by the amount. */
  lemma DecreaseCommitsAsIntended(db: Db, agent: AgentId, amount: Dec, uuidHex: string)
    requires IsUuidHex(uuidHex)
    requires DecreaseCanCommit(db, agent, amount, uuidHex)
    ensures AgentFloatIntended(db, agent, amount, "decrease", uuidHex).outcome.Ok?
    ensures FloatApplied(db, AgentFloatIntended(db, agent, amount, "decrease", uuidHex).db, agent,
                         FirstSuperuser(db).value, -AgentFloatFormClean(amount, "decrease").value.amount)
  {
    assert AgentFloatFormClean(amount, "decrease").value.direction == Decrease;
  }
}

=== FILE: seqs.dfy ===
/** Queries over tables held as sequences: `.first()`, `.count()` and column sums. */
module Seqs {
  import opened Wrappers

  /** The first index whose row satisfies `p`, as `.filter(p).first()` in primary-key order. */
  function FirstWhere<T>(s: seq<T>, p: T -> bool): (r: Option<nat>)
    ensures r.Some? ==> r.value < |s| && p(s[r.value])
    ensures r.Some? ==> forall j :: 0 <= j < r.value ==> !p(s[j])
    ensures r.None? <==> forall j :: 0 <= j < |s| ==> !p(s[j])
  {
    if |s| == 0 then None
    else if p(s[0]) then Some(0)
    else
      match FirstWhere(s[1..], p)
      case None => None
      case Some(k) => Some(k + 1)
  }

  /** The number of rows satisfying `p`, as `.filter(p).count()`. */
  function CountWhere<T>(s: seq<T>, p: T -> bool): (n: nat)
    ensures n <= |s|
    ensures n == 0 <==> forall j :: 0 <= j < |s| ==> !p(s[j])
  {
    if |s| == 0 then 0
    else (if p(s[0]) then 1 else 0) + CountWhere(s[1..], p)
  }

  /** Appending one row adds one to the count exactly when that row matches. */
  lemma {:induction false} CountAppend<T>(s: seq<T>, x: T, p: T -> bool)
    ensures CountWhere(s + [x], p) == CountWhere(s, p) + (if p(x) then 1 else 0)
  {
    if |s| == 0 {
      assert s + [x] == [x];
    } else {
      assert (s + [x])[1..] == s[1..] + [x];
      CountAppend(s[1..], x, p);
    }
  }

  /** When every row matches, the count is the length. */
  lemma {:induction false} CountAll<T>(s: seq<T>, p: T -> bool)
    requires forall j :: 0 <= j < |s| ==> p(s[j])
    ensures CountWhere(s, p) == |s|
  {
    if |s| > 0 {
      CountAll(s[1..], p);
    }
  }

  /** Replacing one row changes the count by the difference of the two rows' membership. */
  lemma {:induction false} CountUpdate<T>(s: seq<T>, i: nat, x: T, p: T -> bool)
    requires i < |s|
    ensures CountWhere(s[i := x], p)
         == CountWhere(s, p) - (if p(s[i]) then 1 else 0) + (if p(x) then 1 else 0)
  {
    if i == 0 {
      assert s[i := x][1..] == s[1..];
    } else {
      assert s[i := x][1..] == s[1..][i - 1 := x];
      CountUpdate(s[1..], i - 1, x, p);
    }
  }

  /** The sum of a numeric column, as `sum(f(row) for row in s)`. */
  function Sum<T>(s: seq<T>, f: T -> int): int
  {
    if |s| == 0 then 0 else f(s[0]) + Sum(s[1..], f)
  }

  /** Replacing one row moves the column sum by exactly the change in that row. */
  lemma {:induction false} SumUpdate<T>(s: seq<T>, i: nat, x: T, f: T -> int)
    requires i < |s|
    ensures Sum(s[i := x], f) == Sum(s, f) - f(s[i]) + f(x)
  {
    if i == 0 {
      assert s[i := x][1..] == s[1..];
    } else {
      assert s[i := x][1..] == s[1..][i - 1 := x];
      SumUpdate(s[1..], i - 1, x, f);
    }
  }

  /** Appending one row adds that row's value to the column sum. */
  lemma {:induction false} SumAppend<T>(s: seq<T>, x: T, f: T -> int)
    ensures Sum(s + [x], f) == Sum(s, f) + f(x)
  {
    if |s| == 0 {
      assert s + [x] == [x];
    } else {
      assert (s + [x])[1..] == s[1..] + [x];
      SumAppend(s[1..], x, f);
    }
  }
}

=== FILE: store.dfy ===
/**
 * The database the views read and write: one sequence per table, the unique
 * and not-null constraints an insert can violate, the `get_or_create` and
 * `.first()` lookups the views use, and the money the tables hold.
 */
module Store {
  import opened Wrappers
  import opened Seqs
  import opened Money
  import opened Models

  datatype Db = Db(
    users: seq<User>,
    accounts: seq<Account>,
    agents: seq<Agent>,
    phoneLines: seq<PhoneLine>,
    limits: seq<Limit>,
    transactions: seq<Transaction>,
    agentTxns: seq<AgentTransaction>,
    notifications: seq<Notification>)

  /** Whether the `sender` column admits null. As declared it does not. */
  datatype SenderColumn = SenderNotNull | SenderNullable

  // ---------------------------------------------------------------------------
  // Unique columns

  predicate UsernameFree(users: seq<User>, name: string)
  {
    forall j :: 0 <= j < |users| ==> users[j].username != name
  }

  /** A null value never collides; a non-null one must be new. */
  predicate UserPhoneFree(users: seq<User>, phone: Option<string>)
  {
    phone.None? || forall j :: 0 <= j < |users| ==> users[j].phone != phone
  }

  predicate UserIdNumberFree(users: seq<User>, idNumber: Option<string>)
  {
    idNumber.None? || forall j :: 0 <= j < |users| ==> users[j].idNumber != idNumber
  }

  predicate AccountOwnerFree(accounts: seq<Account>, owner: UserId)
  {
    forall j :: 0 <= j < |accounts| ==> accounts[j].owner != owner
  }

  predicate AccountNumberFree(accounts: seq<Account>, number: string)
  {
    forall j :: 0 <= j < |accounts| ==> accounts[j].number != number
  }

  predicate TxIdFree(transactions: seq<Transaction>, txId: string)
  {
    forall j :: 0 <= j < |transactions| ==> transactions[j].txId != txId
  }

  // ---------------------------------------------------------------------------
  // Inserts

  /** `User.objects.create_user`: the new row's key is the next index. */
  function InsertUser(db: Db, u: User): (r: Result<(Db, UserId), Constraint>)
    ensures r.Ok? <==> UsernameFree(db.users, u.username) && UserPhoneFree(db.users, u.phone)
                       && UserIdNumberFree(db.users, u.idNumber)
    ensures r.Ok? ==> r.value == (db.(users := db.users + [u]), |db.users|)
  {
    if !UsernameFree(db.users, u.username) then Err(UniqueUsername)
    else if !UserPhoneFree(db.users, u.phone) then Err(UniqueUserPhone)
    else if !UserIdNumberFree(db.users, u.idNumber) then Err(UniqueUserIdNumber)
    else Ok((db.(users := db.users + [u]), |db.users|))
  }

  /** `MPesaAccount.objects.create`: one account per user, unique account numbers. */
  function InsertAccount(db: Db, a: Account): (r: Result<(Db, AccountId), Constraint>)
    ensures r.Ok? <==> AccountOwnerFree(db.accounts, a.owner) && AccountNumberFree(db.accounts, a.number)
    ensures r.Ok? ==> r.value == (db.(accounts := db.accounts + [a]), |db.accounts|)
  {
    if !AccountOwnerFree(db.accounts, a.owner) then Err(UniqueAccountOwner)
    else if !AccountNumberFree(db.accounts, a.number) then Err(UniqueAccountNumber)
    else Ok((db.(accounts := db.accounts + [a]), |db.accounts|))
  }

  /** `Transaction.objects.create`: the sender is mandatory under the declared schema; ids are unique. */
  function InsertTransaction(db: Db, t: Transaction, column: SenderColumn): (r: Result<(Db, TxnIndex), Constraint>)
    ensures r.Ok? <==> (column == SenderNotNull ==> t.sender.Some?) && TxIdFree(db.transactions, t.txId)
    ensures column == SenderNotNull && t.sender.None? ==> r == Err(NotNullSender)
    ensures r.Ok? ==> r.value == (db.(transactions := db.transactions + [t]), |db.transactions|)
  {
    if column == SenderNotNull && t.sender.None? then Err(NotNullSender)
    else if !TxIdFree(db.transactions, t.txId) then Err(UniqueTransactionId)
    else Ok((db.(transactions := db.transactions + [t]), |db.transactions|))
  }

  function AppendAgentTxn(db: Db, x: AgentTransaction): (db': Db)
  {
    db.(agentTxns := db.agentTxns + [x])
  }

  function AppendNotification(db: Db, n: Notification): (db': Db)
  {
    db.(notifications := db.notifications + [n])
  }

  // ---------------------------------------------------------------------------
  // Lookups

  function OwnedBy(owner: UserId): Account -> bool
  {
    (a: Account) => a.owner == owner
  }

  /** The account of a user, as `MPesaAccount.objects.get(user=owner)`. */
  function AccountOf(db: Db, owner: UserId): (r: Option<AccountId>)
    ensures r.Some? ==> r.value < |db.accounts| && db.accounts[r.value].owner == owner
    ensures r.None? <==> AccountOwnerFree(db.accounts, owner)
  {
    var r := FirstWhere(db.accounts, OwnedBy(owner));
    assert r.None? ==> forall j :: 0 <= j < |db.accounts| ==> !OwnedBy(owner)(db.accounts[j]);
    r
  }

  /**
   * `MPesaAccount.objects.get_or_create(user=owner, defaults={...})`: the
   * user's existing account, or a new one with balance 0.
   */
  function GetOrCreateAccount(db: Db, owner: UserId, number: string, pinHash: string): (r: Result<(Db, AccountId), Constraint>)
    ensures r.Ok? ==> r.value.1 < |r.value.0.accounts| && r.value.0.accounts[r.value.1].owner == owner
    ensures AccountOf(db, owner).Some? ==> r == Ok((db, AccountOf(db, owner).value))
    ensures AccountOf(db, owner).None? ==>
      (r.Ok? <==> AccountNumberFree(db.accounts, number))
      && (r.Ok? ==> r.value == (db.(accounts := db.accounts + [Account(owner, number, 0, true, pinHash)]), |db.accounts|))
  {
    match AccountOf(db, owner)
    case Some(i) => Ok((db, i))
    case None => InsertAccount(db, Account(owner, number, 0, true, pinHash))
  }

  predicate IsSuperuser(u: User)
  {
    u.isSuperuser
  }

  /** `User.objects.filter(is_superuser=True).first()`. */
  function FirstSuperuser(db: Db): (r: Option<UserId>)
    ensures r.Some? ==> r.value < |db.users| && db.users[r.value].isSuperuser
    ensures r.Some? ==> forall j :: 0 <= j < r.value ==> !db.users[j].isSuperuser
    ensures r.None? <==> forall j :: 0 <= j < |db.users| ==> !db.users[j].isSuperuser
  {
    var r := FirstWhere(db.users, IsSuperuser);
    assert r.None? ==> forall j :: 0 <= j < |db.users| ==> !IsSuperuser(db.users[j]);
    r
  }

  // ---------------------------------------------------------------------------
  // Money held

  function BalanceOf(a: Account): int
  {
    a.balance
  }

  function FloatOf(g: Agent): int
  {
    g.floatBalance
  }

  /** All value in the system: every account balance plus every agent float. */
  function TotalMoney(db: Db): (total: int)
  {
    Sum(db.accounts, BalanceOf) + Sum(db.agents, FloatOf)
  }

  // ---------------------------------------------------------------------------
  // Integrity of a committed state

  /** References point at existing rows. */
  ghost predicate ReferencesResolve(db: Db)
  {
    && (forall i :: 0 <= i < |db.accounts| ==> db.accounts[i].owner < |db.users|)
    && (forall i :: 0 <= i < |db.agents| ==> db.agents[i].user < |db.users|)
    && (forall i :: 0 <= i < |db.transactions| ==>
          && (db.transactions[i].sender.Some? ==> db.transactions[i].sender.value < |db.accounts|)
          && (db.transactions[i].receiver.Some? ==> db.transactions[i].receiver.value < |db.accounts|)
          && (db.transactions[i].agent.Some? ==> db.transactions[i].agent.value < |db.agents|))
    && (forall i :: 0 <= i < |db.agentTxns| ==>
          && db.agentTxns[i].txn < |db.transactions|
          && db.agentTxns[i].agent < |db.agents|
          && db.agentTxns[i].customer < |db.users|)
    && (forall i :: 0 <= i < |db.notifications| ==>
          && db.notifications[i].user < |db.users|
          && (db.notifications[i].txn.Some? ==> db.notifications[i].txn.value < |db.transactions|))
  }

  /** No balance or float is negative, and every recorded movement is positive with a non-negative fee. */
  ghost predicate AmountsSound(db: Db)
  {
    && (forall i :: 0 <= i < |db.accounts| ==> db.accounts[i].balance >= 0)
    && (forall i :: 0 <= i < |db.agents| ==> db.agents[i].floatBalance >= 0)
    && (forall i :: 0 <= i < |db.transactions| ==> db.transactions[i].amount > 0 && db.transactions[i].fee >= 0)
  }

  /**
   * The user table's unique columns: the username, and the phone number and
   * ID number when present (SQL NULLs are distinct, so two null values never
   * collide).
   */
  ghost predicate UserColumnsUnique(users: seq<User>)
  {
    && (forall i, j :: 0 <= i < j < |users| ==> users[i].username != users[j].username)
    && (forall i, j :: 0 <= i < j < |users| && users[i].phone.Some? ==> users[i].phone != users[j].phone)
    && (forall i, j :: 0 <= i < j < |users| && users[i].idNumber.Some? ==> users[i].idNumber != users[j].idNumber)
  }

  /** The one-to-one link from an agent transaction to its transaction. */
  ghost predicate AgentTxnsOneToOne(agentTxns: seq<AgentTransaction>)
  {
    forall i, j :: 0 <= i < j < |agentTxns| ==> agentTxns[i].txn != agentTxns[j].txn
  }

  /** The unique columns hold no duplicates. */
  ghost predicate UniqueColumns(db: Db)
  {
    && UserColumnsUnique(db.users)
    && (forall i, j :: 0 <= i < j < |db.agents| ==> db.agents[i].user != db.agents[j].user)
    && (forall i, j :: 0 <= i < j < |db.agents| ==> db.agents[i].businessNumber != db.agents[j].businessNumber)
    && AgentTxnsOneToOne(db.agentTxns)
    && (forall i, j :: 0 <= i < j < |db.accounts| ==> db.accounts[i].owner != db.accounts[j].owner)
    && (forall i, j :: 0 <= i < j < |db.accounts| ==> db.accounts[i].number != db.accounts[j].number)
    && (forall i, j :: 0 <= i < j < |db.transactions| ==> db.transactions[i].txId != db.transactions[j].txId)
    && (forall i, j :: 0 <= i < j < |db.phoneLines| ==> db.phoneLines[i].phone != db.phoneLines[j].phone)
  }

  ghost predicate Valid(db: Db)
  {
    ReferencesResolve(db) && AmountsSound(db) && UniqueColumns(db)
  }

  /** The checks `InsertUser` makes are exactly what keeps the user columns unique. */
  lemma InsertUserKeepsUsersUnique(db: Db, u: User)
    requires UserColumnsUnique(db.users)
    ensures InsertUser(db, u).Ok? <==> UserColumnsUnique(db.users + [u])
  {
    var users := db.users + [u];
    var n := |db.users|;
    if InsertUser(db, u).Ok? {
      forall i, j | 0 <= i < j < |users|
        ensures users[i].username != users[j].username
        ensures users[i].phone.Some? ==> users[i].phone != users[j].phone
        ensures users[i].idNumber.Some? ==> users[i].idNumber != users[j].idNumber
      {
        assert users[i] == db.users[i];
        if j < n {
          assert users[j] == db.users[j];
        }
      }
    } else if !UsernameFree(db.users, u.username) {
      var j :| 0 <= j < n && db.users[j].username == u.username;
      assert users[j] == db.users[j] && users[n] == u;
    } else if !UserPhoneFree(db.users, u.phone) {
      var j :| 0 <= j < n && db.users[j].phone == u.phone;
      assert users[j] == db.users[j] && users[n] == u;
    } else {
      var j :| 0 <= j < n && db.users[j].idNumber == u.idNumber;
      assert users[j] == db.users[j] && users[n] == u;
    }
  }

  /** An agent transaction for a transaction no earlier one references keeps the link one-to-one. */
  lemma AppendAgentTxnKeepsOneToOne(db: Db, x: AgentTransaction)
    requires AgentTxnsOneToOne(db.agentTxns)
    ensures AgentTxnsOneToOne(AppendAgentTxn(db, x).agentTxns)
        <==> forall i :: 0 <= i < |db.agentTxns| ==> db.agentTxns[i].txn != x.txn
  {
    var xs := AppendAgentTxn(db, x).agentTxns;
    var n := |db.agentTxns|;
    if forall i :: 0 <= i < n ==> db.agentTxns[i].txn != x.txn {
      forall i, j | 0 <= i < j < |xs|
        ensures xs[i].txn != xs[j].txn
      {
        assert xs[i] == db.agentTxns[i];
        if j < n {
          assert xs[j] == db.agentTxns[j];
        }
      }
    } else {
      var i :| 0 <= i < n && db.agentTxns[i].txn == x.txn;
      assert xs[i] == db.agentTxns[i] && xs[n] == x;
    }
  }
}

=== FILE: views.dfy ===
/**
 * The agent-side views that change the ledger: registering a customer,
 * checking a national ID before registration, adjusting an agent's float and
 * making a customer's initial deposit. Each view is a function from the
 * database to the committed database; a failure inside `transaction.atomic()`
 * rolls everything back, so an `Err` carries no database at all.
 */
module Views {
  import opened Wrappers
  import opened Seqs
  import opened Money
  import opened Models
  import opened Forms
  import opened Store

  datatype Error =
    | NotAgent
    | NotFound
    | MethodNotAllowed
    | InvalidForm(field: FormError)
    | InvalidRegistration
    | AccountHasFunds
    | InsufficientFloat
    | OutsideDepositLimit(minAmount: Cents, maxAmount: Cents)
    | PhoneAlreadyRegistered
    | TooManyLines
    | NoFreshAccountNumber
    | LineRejected(reason: SaveError)
    | DbIntegrity(constraint: Constraint)

  /** `is_agent`: the requesting user has an agent profile and it is active. */
  predicate IsActiveAgent(db: Db, agent: AgentId)
  {
    agent < |db.agents| && db.agents[agent].isActive
  }

  // ---------------------------------------------------------------------------
  // Identifiers

  predicate IsLowerHexDigit(c: char)
  {
    '0' <= c <= '9' || 'a' <= c <= 'f'
  }

  predicate IsUpperHexDigit(c: char)
  {
    '0' <= c <= '9' || 'A' <= c <= 'F'
  }

  function UpperChar(c: char): char
  {
    if 'a' <= c <= 'z' then (c as int - 32) as char else c
  }

  function LowerChar(c: char): char
  {
    if 'A' <= c <= 'Z' then (c as int + 32) as char else c
  }

  /** `str.upper()` on the characters that occur in a hex string. */
  function Upper(s: string): (u: string)
    ensures |u| == |s|
    ensures forall i :: 0 <= i < |s| ==> u[i] == UpperChar(s[i])
  {
    seq(|s|, i requires 0 <= i < |s| => UpperChar(s[i]))
  }

  function Lower(s: string): (l: string)
    ensures |l| == |s|
    ensures forall i :: 0 <= i < |s| ==> l[i] == LowerChar(s[i])
  {
    seq(|s|, i requires 0 <= i < |s| => LowerChar(s[i]))
  }

  /** `uuid.uuid4().hex`: 32 lower-case hex digits. */
  predicate IsUuidHex(h: string)
  {
    |h| == 32 && forall i :: 0 <= i < |h| ==> IsLowerHexDigit(h[i])
  }

  /**
   * `generate_transaction_id`: "MP" and the first ten hex digits of a fresh
   * uuid, upper-cased. The uuid is a parameter.
   */
  function GenerateTransactionId(uuidHex: string): (id: string)
    requires IsUuidHex(uuidHex)
    ensures |id| == 12 && id[..2] == "MP"
    ensures forall i :: 2 <= i < |id| ==> IsUpperHexDigit(id[i])
    ensures Lower(id[2..]) == uuidHex[..10]
  {
    var id := "MP" + Upper(uuidHex[..10]);
    assert id[2..] == Upper(uuidHex[..10]);
    id
  }

  /**
   * `generate_account_number`: the first draw no account already uses. The
   * draws are a parameter; when every draw is taken the model reports it
   * instead of drawing again.
   */
  function GenerateAccountNumber(accounts: seq<Account>, draws: seq<string>): (r: Option<string>)
    ensures r.Some? ==> AccountNumberFree(accounts, r.value)
    ensures r.Some? ==> exists k :: 0 <= k < |draws| && draws[k] == r.value
                          && forall j :: 0 <= j < k ==> !AccountNumberFree(accounts, draws[j])
    ensures r.None? <==> forall k :: 0 <= k < |draws| ==> !AccountNumberFree(accounts, draws[k])
  {
    var free := (d: string) => AccountNumberFree(accounts, d);
    match FirstWhere(draws, free)
    case None => None
    case Some(k) => Some(draws[k])
  }

  // ---------------------------------------------------------------------------
  // register_customer

  predicate IsPlus(c: char)
  {
    c == '+'
  }

  /**
   * `phone_number.replace('+', '')`: every '+' goes and nothing else does.
   * With `Properties.RemovePlusAppend` and `Properties.RemovePlusIdentity`
   * this determines the result.
   */
  function RemovePlus(s: string): (r: string)
    ensures forall i :: 0 <= i < |r| ==> r[i] != '+'
    ensures |r| == |s| - CountWhere(s, IsPlus)
  {
    if |s| == 0 then ""
    else if s[0] == '+' then RemovePlus(s[1..])
    else [s[0]] + RemovePlus(s[1..])
  }

  /** `User.objects.filter(phone_number=phone).exists()` */
  predicate PhoneRegistered(users: seq<User>, phone: string)
  {
    exists j :: 0 <= j < |users| && users[j].phone == Some(phone)
  }

  const EmailDomain: string := "@mpesa.example.com"

  /** The user row `register_customer` creates for a submitted form. */
  function NewCustomer(input: RegistrationInput): (u: User)
  {
    var username := RemovePlus(input.phone);
    User(username, username + EmailDomain, Some(input.phone), Some(input.idNumber),
         input.firstName, input.lastName, Some(input.dateOfBirth), true, false)
  }

  /** Both registration forms pass. */
  predicate RegistrationFormsValid(input: RegistrationInput, today: Date)
  {
    CustomerFormValid(input, today) && AccountFormErrors(input.pin, input.confirmPin) == {}
  }

  /**
   * What a successful registration commits: one user, one zero-balance
   * account owned by that user under a number no account had, and one active
   * phone line; nothing else changes.
   */
  ghost predicate RegistrationApplied(db: Db, db': Db, account: AccountId, input: RegistrationInput, hashPin: string -> string)
  {
    && db'.users == db.users + [NewCustomer(input)]
    && account == |db.accounts|
    && |db'.accounts| == |db.accounts| + 1
    && db'.accounts[..account] == db.accounts
    && db'.accounts[account].owner == |db.users|
    && db'.accounts[account].balance == 0
    && db'.accounts[account].isActive
    && db'.accounts[account].pinHash == hashPin(input.pin)
    && AccountNumberFree(db.accounts, db'.accounts[account].number)
    && db'.phoneLines == db.phoneLines + [PhoneLine(input.idNumber, input.phone, true)]
    && PhoneFree(db.phoneLines, input.phone, None)
    && db'.agents == db.agents
    && db'.limits == db.limits
    && db'.transactions == db.transactions
    && db'.agentTxns == db.agentTxns
    && db'.notifications == db.notifications
  }

  /**
   * `register_customer` on a POST: both forms valid, the phone not yet
   * registered, fewer than five active lines for the ID; then the user, the
   * zero-balance account and the phone line are created in one atomic block.
   * `draws` are the account-number candidates and `hashPin` is `hash_pin`.
   */
  function RegisterCustomer(db: Db, agent: AgentId, input: RegistrationInput, today: Date,
                            draws: seq<string>, hashPin: string -> string): (r: Result<(Db, AccountId), Error>)
    ensures (IsActiveAgent(db, agent) && RegistrationFormsValid(input, today) && PhoneRegistered(db.users, input.phone))
              ==> r == Err(PhoneAlreadyRegistered)
    ensures (IsActiveAgent(db, agent) && RegistrationFormsValid(input, today) && !PhoneRegistered(db.users, input.phone)
             && ActiveLines(db.phoneLines, input.idNumber) >= MaxActiveLines)
              ==> r == Err(TooManyLines)
    ensures r.Ok? ==> IsActiveAgent(db, agent) && RegistrationFormsValid(input, today)
    ensures r.Ok? ==> !PhoneRegistered(db.users, input.phone)
    ensures r.Ok? ==> ActiveLines(db.phoneLines, input.idNumber) < MaxActiveLines
    ensures r.Ok? ==> UserIdNumberFree(db.users, Some(input.idNumber)) && UsernameFree(db.users, RemovePlus(input.phone))
    ensures r.Ok? ==> RegistrationApplied(db, r.value.0, r.value.1, input, hashPin)
    // The new user's key is |db.users|; no account may already name it as owner.
    ensures (&& IsActiveAgent(db, agent) && RegistrationFormsValid(input, today)
             && !PhoneRegistered(db.users, input.phone)
             && ActiveLines(db.phoneLines, input.idNumber) < MaxActiveLines
             && UsernameFree(db.users, RemovePlus(input.phone))
             && UserIdNumberFree(db.users, Some(input.idNumber))
             && AccountOwnerFree(db.accounts, |db.users|)
             && (exists k :: 0 <= k < |draws| && AccountNumberFree(db.accounts, draws[k]))
             && PhoneFree(db.phoneLines, input.phone, None))
              ==> r.Ok?
  {
    if !IsActiveAgent(db, agent) then Err(NotAgent)
    else if !RegistrationFormsValid(input, today) then Err(InvalidRegistration)
    else if PhoneRegistered(db.users, input.phone) then Err(PhoneAlreadyRegistered)
    else if ActiveLines(db.phoneLines, input.idNumber) >= MaxActiveLines then Err(TooManyLines)
    else
      match InsertUser(db, NewCustomer(input))
      case Err(c) => Err(DbIntegrity(c))
      case Ok((db1, user)) =>
        match GenerateAccountNumber(db1.accounts, draws)
        case None => Err(NoFreshAccountNumber)
        case Some(number) =>
          match InsertAccount(db1, Account(user, number, 0, true, hashPin(input.pin)))
          case Err(c) => Err(DbIntegrity(c))
          case Ok((db2, account)) =>
            match SavePhoneLine(db2.phoneLines, PhoneLine(input.idNumber, input.phone, true), None)
            case Err(e) => Err(LineRejected(e))
            case Ok(lines) => Ok((db2.(phoneLines := lines), account))
  }

  // ---------------------------------------------------------------------------
  // verify_customer_id

  /** The JSON body of `verify_customer_id`. */
  datatype IdCheck = IdCheck(userExists: bool, activeLines: nat, canRegister: bool)

  /**
   * `verify_customer_id`: a missing `id_number` is looked up as null, which
   * matches users without an ID and no phone line (that column is not null).
   */
  function VerifyCustomerId(db: Db, agent: AgentId, isPost: bool, idNumber: Option<string>): (r: Result<IdCheck, Error>)
    ensures !IsActiveAgent(db, agent) ==> r == Err(NotAgent)
    ensures IsActiveAgent(db, agent) ==> (r.Ok? <==> isPost)
    ensures r.Ok? ==> (r.value.canRegister <==> r.value.activeLines < MaxActiveLines)
    ensures r.Ok? ==> (r.value.userExists <==> exists j :: 0 <= j < |db.users| && db.users[j].idNumber == idNumber)
    ensures r.Ok? && idNumber.None? ==> r.value.activeLines == 0
    ensures r.Ok? && idNumber.Some? ==> r.value.activeLines == ActiveLines(db.phoneLines, idNumber.value)
  {
    if !IsActiveAgent(db, agent) then Err(NotAgent)
    else if !isPost then Err(MethodNotAllowed)
    else
      var userExists := exists j :: 0 <= j < |db.users| && db.users[j].idNumber == idNumber;
      var activeLines := if idNumber.None? then 0 else ActiveLines(db.phoneLines, idNumber.value);
      Ok(IdCheck(userExists, activeLines, activeLines < MaxActiveLines))
  }

  // ---------------------------------------------------------------------------
  // agent_float

  /** The committed state of a view whose refusal can follow a committed write. */
  datatype Reply = Reply(db: Db, outcome: Result<(), Error>)

  const SystemAccountNumber: string := "0000000000"

  /**
   * The accounts table after a `get_or_create`: the old rows unchanged and at
   * most one new row, with balance 0, for an owner and a number no row had.
   */
  ghost predicate AccountsKeptOrOneOpened(before: seq<Account>, after: seq<Account>)
  {
    && |before| <= |after| <= |before| + 1
    && after[..|before|] == before
    && (|after| > |before| ==>
          && after[|before|].balance == 0
          && AccountOwnerFree(before, after[|before|].owner)
          && AccountNumberFree(before, after[|before|].number))
  }

  /** The account at `a` in `db'` is the account of `systemUser`, a superuser of `db`. */
  ghost predicate IsSystemAccount(db: Db, db': Db, systemUser: UserId, a: Option<AccountId>)
  {
    && systemUser < |db.users| && db.users[systemUser].isSuperuser
    && a.Some? && a.value < |db'.accounts| && db'.accounts[a.value].owner == systemUser
  }

  /**
   * At most the system account has been opened: any new account row is
   * `systemUser`'s, with the defaults `get_or_create` gives it.
   */
  ghost predicate SystemAccountKeptOrOpened(db: Db, db': Db, systemUser: UserId)
  {
    && AccountsKeptOrOneOpened(db.accounts, db'.accounts)
    && (|db'.accounts| > |db.accounts| ==>
          && IsSystemAccount(db, db', systemUser, Some(|db.accounts|))
          && db'.accounts[|db.accounts|] == Account(systemUser, SystemAccountNumber, 0, true, "system"))
  }

  /**
   * What a successful float adjustment by `delta` commits: the agent's float
   * moves by `delta`, no existing balance changes, one completed FLOAT
   * transaction of `|delta|` with fee 0 is recorded against the system
   * account of `systemUser` (its sender on an increase, its receiver on a
   * decrease), and one agent row with commission 0 and `systemUser` as its
   * customer is linked to it.
   */
  ghost predicate FloatApplied(db: Db, db': Db, agent: AgentId, systemUser: UserId, delta: int)
  {
    && agent < |db.agents|
    && db'.agents == db.agents[agent := db.agents[agent].(floatBalance := db.agents[agent].floatBalance + delta)]
    && SystemAccountKeptOrOpened(db, db', systemUser)
    && |db'.transactions| == |db.transactions| + 1
    && db'.transactions[..|db.transactions|] == db.transactions
    && (var t := db'.transactions[|db.transactions|];
        && TxIdFree(db.transactions, t.txId)
        && t.kind == FloatAdjustment && t.status == Completed && t.fee == 0 && t.agent == Some(agent)
        && (delta >= 0 ==> t.amount == delta && IsSystemAccount(db, db', systemUser, t.sender) && t.receiver.None?)
        && (delta < 0 ==> t.amount == -delta && t.sender.None? && IsSystemAccount(db, db', systemUser, t.receiver)))
    && |db'.agentTxns| == |db.agentTxns| + 1
    && db'.agentTxns[..|db.agentTxns|] == db.agentTxns
    && (var x := db'.agentTxns[|db.agentTxns|];
        && x.txn == |db.transactions| && x.agent == agent && x.kind == FloatIncrease && x.commission == 0
        && x.customer == systemUser)
    && db'.users == db.users
    && db'.phoneLines == db.phoneLines
    && db'.limits == db.limits
    && db'.notifications == db.notifications
  }

  /**
   * The body of the atomic block of `agent_float` once the system user is
   * known: fetch or create the system account, then record the FLOAT
   * transaction and move the float. A decrease the float cannot cover
   * returns early and keeps the system account; an exception rolls back.
   */
  function CommitFloat(db: Db, agent: AgentId, request: FloatRequest, txId: string,
                       column: SenderColumn, systemUser: UserId): (r: Reply)
    requires agent < |db.agents|
    requires systemUser < |db.users| && db.users[systemUser].isSuperuser
    requires request.amount > 0
    ensures r.outcome.Err? && r.outcome.error != InsufficientFloat ==> r.db == db
    ensures r.outcome == Err(InsufficientFloat) ==>
      && request.direction.Decrease?
      && db.agents[agent].floatBalance < request.amount
      && SystemAccountKeptOrOpened(db, r.db, systemUser)
      && AccountOf(r.db, systemUser).Some?
      && r.db == db.(accounts := r.db.accounts)
    ensures r.outcome.Ok? && request.direction.Increase? ==> FloatApplied(db, r.db, agent, systemUser, request.amount)
    ensures r.outcome.Ok? ==>
      |r.db.transactions| == |db.transactions| + 1 && r.db.transactions[|db.transactions|].txId == txId
    ensures r.outcome.Ok? && request.direction.Decrease? ==>
      db.agents[agent].floatBalance >= request.amount && FloatApplied(db, r.db, agent, systemUser, -request.amount)
    ensures column == SenderNotNull && request.direction.Decrease? ==> r.outcome.Err?
    ensures (request.direction.Decrease? && db.agents[agent].floatBalance < request.amount
             && (AccountOf(db, systemUser).Some? || AccountNumberFree(db.accounts, SystemAccountNumber)))
              ==> r.outcome == Err(InsufficientFloat)
    ensures (&& (AccountOf(db, systemUser).Some? || AccountNumberFree(db.accounts, SystemAccountNumber))
             && TxIdFree(db.transactions, txId)
             && (|| request.direction.Increase?
                 || (column == SenderNullable && db.agents[agent].floatBalance >= request.amount)))
              ==> r.outcome.Ok?
  {
    match GetOrCreateAccount(db, systemUser, SystemAccountNumber, "system")
    case Err(c) => Reply(db, Err(DbIntegrity(c)))
    case Ok((db1, systemAccount)) =>
      var g := db.agents[agent];
      if request.direction == Increase then
        var txn := Transaction(txId, FloatAdjustment, Some(systemAccount), None, Some(agent),
                               request.amount, 0, Completed);
        match InsertTransaction(db1, txn, column)
        case Err(c) => Reply(db, Err(DbIntegrity(c)))
        case Ok((db2, t)) =>
          var db3 := db2.(agents := db2.agents[agent := g.(floatBalance := g.floatBalance + request.amount)]);
          Reply(AppendAgentTxn(db3, AgentTransaction(t, agent, systemUser, FloatIncrease, 0)), Ok(()))
      else if g.floatBalance < request.amount then
        Reply(db1, Err(InsufficientFloat))
      else
        var txn := Transaction(txId, FloatAdjustment, None, Some(systemAccount), Some(agent),
                               request.amount, 0, Completed);
        match InsertTransaction(db1, txn, column)
        case Err(c) => Reply(db, Err(DbIntegrity(c)))
        case Ok((db2, t)) =>
          var db3 := db2.(agents := db2.agents[agent := g.(floatBalance := g.floatBalance - request.amount)]);
          Reply(AppendAgentTxn(db3, AgentTransaction(t, agent, systemUser, FloatIncrease, 0)), Ok(()))
  }

  /**
   * `agent_float` on a POST, under a given `sender` column. Inside the atomic
   * block the system account (the first superuser's) is fetched or created
   * first. An increase records a FLOAT transaction sent by the system account
   * and raises the float; a decrease below the float returns early, which
   * commits the system account if it was just created; otherwise it records
   * a FLOAT transaction with no sender and lowers the float. Any exception
   * rolls back to `db`.
   */
  function AdjustFloat(db: Db, agent: AgentId, amount: Dec, choice: string, uuidHex: string,
                       column: SenderColumn): (r: Reply)
    requires IsUuidHex(uuidHex)
    ensures r.outcome.Err? && r.outcome.error != InsufficientFloat ==> r.db == db
    ensures r.outcome == Err(InsufficientFloat) ==>
      && choice == "decrease"
      && FirstSuperuser(db).Some?
      && SystemAccountKeptOrOpened(db, r.db, FirstSuperuser(db).value)
      && AccountOf(r.db, FirstSuperuser(db).value).Some?
      && r.db == db.(accounts := r.db.accounts)
    ensures r.outcome.Ok? ==>
      IsActiveAgent(db, agent) && AgentFloatFormClean(amount, choice).Ok? && FirstSuperuser(db).Some?
    ensures r.outcome.Ok? ==>
      && |r.db.transactions| == |db.transactions| + 1
      && r.db.transactions[|db.transactions|].txId == GenerateTransactionId(uuidHex)
    ensures r.outcome.Ok? && choice == "increase" ==>
      FloatApplied(db, r.db, agent, FirstSuperuser(db).value, AgentFloatFormClean(amount, choice).value.amount)
    ensures r.outcome.Ok? && choice == "decrease" ==>
      && db.agents[agent].floatBalance >= AgentFloatFormClean(amount, choice).value.amount
      && FloatApplied(db, r.db, agent, FirstSuperuser(db).value, -AgentFloatFormClean(amount, choice).value.amount)
    ensures column == SenderNotNull && choice == "decrease" ==> r.outcome.Err?
    ensures (IsActiveAgent(db, agent) && AgentFloatFormClean(amount, choice).Ok? && choice == "decrease"
             && db.agents[agent].floatBalance < AgentFloatFormClean(amount, choice).value.amount
             && FirstSuperuser(db).Some?
             && (AccountOf(db, FirstSuperuser(db).value).Some? || AccountNumberFree(db.accounts, SystemAccountNumber)))
              ==> r.outcome == Err(InsufficientFloat)
    ensures (&& IsActiveAgent(db, agent) && AgentFloatFormClean(amount, choice).Ok? && FirstSuperuser(db).Some?
             && (AccountOf(db, FirstSuperuser(db).value).Some? || AccountNumberFree(db.accounts, SystemAccountNumber))
             && TxIdFree(db.transactions, GenerateTransactionId(uuidHex))
             && (|| choice == "increase"
                 || (column == SenderNullable
                     && db.agents[agent].floatBalance >= AgentFloatFormClean(amount, choice).value.amount)))
              ==> r.outcome.Ok?
  {
    if !IsActiveAgent(db, agent) then Reply(db, Err(NotAgent))
    else
      match AgentFloatFormClean(amount, choice)
      case Err(e) => Reply(db, Err(InvalidForm(e)))
      case Ok(request) =>
        match FirstSuperuser(db)
        // get_or_create(user=None) creates an account without an owner
        case None => Reply(db, Err(DbIntegrity(NotNullAccountOwner)))
        case Some(systemUser) =>
          CommitFloat(db, agent, request, GenerateTransactionId(uuidHex), column, systemUser)
  }

  /**
   * `agent_float` as the schema declares it: `sender` is not null, so a
   * decrease never commits a float change or a ledger row.
   */
  function AgentFloat(db: Db, agent: AgentId, amount: Dec, choice: string, uuidHex: string): (r: Reply)
    requires IsUuidHex(uuidHex)
    ensures choice == "decrease" ==>
      && r.outcome.Err?
      && r.db.agents == db.agents
      && r.db.transactions == db.transactions
      && r.db.agentTxns == db.agentTxns
      && (r.db == db || (FirstSuperuser(db).Some? && SystemAccountKeptOrOpened(db, r.db, FirstSuperuser(db).value)))
    ensures r.outcome.Ok? && choice == "increase" ==>
      && AgentFloatFormClean(amount, choice).Ok?
      && FirstSuperuser(db).Some?
      && FloatApplied(db, r.db, agent, FirstSuperuser(db).value, AgentFloatFormClean(amount, choice).value.amount)
    ensures (&& choice == "increase" && IsActiveAgent(db, agent) && AgentFloatFormClean(amount, choice).Ok?
             && FirstSuperuser(db).Some?
             && (AccountOf(db, FirstSuperuser(db).value).Some? || AccountNumberFree(db.accounts, SystemAccountNumber))
             && TxIdFree(db.transactions, GenerateTransactionId(uuidHex)))
              ==> r.outcome.Ok?
  {
    AdjustFloat(db, agent, amount, choice, uuidHex, SenderNotNull)
  }

  /** `agent_float` with the `sender` column nullable, as a pure debit needs. */
  function AgentFloatIntended(db: Db, agent: AgentId, amount: Dec, choice: string, uuidHex: string): (r: Reply)
    requires IsUuidHex(uuidHex)
    ensures r.outcome.Ok? && choice == "decrease" ==>
      && IsActiveAgent(db, agent)
      && AgentFloatFormClean(amount, choice).Ok?
      && db.agents[agent].floatBalance >= AgentFloatFormClean(amount, choice).value.amount
      && FirstSuperuser(db).Some?
      && FloatApplied(db, r.db, agent, FirstSuperuser(db).value, -AgentFloatFormClean(amount, choice).value.amount)
      && r.db.agents[agent].floatBalance >= 0
  {
    AdjustFloat(db, agent, amount, choice, uuidHex, SenderNullable)
  }

  // ---------------------------------------------------------------------------
  // initial_deposit

  /** An active limit row for a transaction type. */
  function ActiveLimitFor(kind: TxnKind): Limit -> bool
  {
    (l: Limit) => l.kind == kind && l.isActive
  }

  /** `Limit.objects.filter(transaction_type=kind, is_active=True).first()` */
  function FirstActiveLimit(db: Db, kind: TxnKind): (r: Option<nat>)
    ensures r.Some? ==> r.value < |db.limits| && db.limits[r.value].kind == kind && db.limits[r.value].isActive
    ensures r.Some? ==> forall j :: 0 <= j < r.value ==> !(db.limits[j].kind == kind && db.limits[j].isActive)
    ensures r.None? <==> forall j :: 0 <= j < |db.limits| ==> !(db.limits[j].kind == kind && db.limits[j].isActive)
  {
    var r := FirstWhere(db.limits, ActiveLimitFor(kind));
    assert r.None? ==> forall j :: 0 <= j < |db.limits| ==> !ActiveLimitFor(kind)(db.limits[j]);
    r
  }

  /** `business_number[-8:]` */
  function LastEight(s: string): (r: string)
    ensures |r| == if |s| <= 8 then |s| else 8
    ensures r == s[|s| - |r|..]
  {
    if |s| <= 8 then s else s[|s| - 8..]
  }

  /** The number `get_or_create` gives an agent's own account: "AG" and the business number's last eight characters. */
  function AgentAccountNumber(g: Agent): (number: string)
  {
    "AG" + LastEight(g.businessNumber)
  }

  /** The first active limit for `kind`, if any, admits `cents`; with none, anything is admitted. */
  predicate LimitAdmits(db: Db, kind: TxnKind, cents: Cents)
  {
    var l := FirstActiveLimit(db, kind);
    l.None? || (db.limits[l.value].minAmount <= cents <= db.limits[l.value].maxAmount)
  }

  /** The checks `initial_deposit` makes before its float check all pass. */
  predicate DepositRequestAccepted(db: Db, agent: AgentId, account: AccountId, amount: Dec)
  {
    IsActiveAgent(db, agent) && account < |db.accounts| && db.accounts[account].balance <= 0
    && InitialDepositFormClean(amount).Ok?
  }

  /**
   * What a successful deposit of `cents` commits: the customer's balance
   * rises by `cents`, the agent's float falls by `cents`, no other existing
   * balance changes, at most the agent's own zero-balance account is opened,
   * and one completed DEPOSIT (fee 0, from the agent's account to the
   * customer's), its agent row (commission 0) and one SMS notification are
   * appended.
   */
  ghost predicate DepositApplied(db: Db, db': Db, agent: AgentId, account: AccountId, cents: Cents)
  {
    && agent < |db.agents|
    && account < |db.accounts|
    && |db.accounts| <= |db'.accounts| <= |db.accounts| + 1
    && db'.accounts[account] == db.accounts[account].(balance := db.accounts[account].balance + cents)
    && (forall i :: 0 <= i < |db.accounts| && i != account ==> db'.accounts[i] == db.accounts[i])
    && (|db'.accounts| > |db.accounts| ==>
          && db'.accounts[|db.accounts|] == Account(db.agents[agent].user, AgentAccountNumber(db.agents[agent]), 0, true, "agent")
          && AccountOwnerFree(db.accounts, db.agents[agent].user)
          && AccountNumberFree(db.accounts, AgentAccountNumber(db.agents[agent])))
    && db'.agents == db.agents[agent := db.agents[agent].(floatBalance := db.agents[agent].floatBalance - cents)]
    && |db'.transactions| == |db.transactions| + 1
    && db'.transactions[..|db.transactions|] == db.transactions
    && (var t := db'.transactions[|db.transactions|];
        && TxIdFree(db.transactions, t.txId)
        && t.kind == Deposit && t.status == Completed && t.fee == 0 && t.amount == cents
        && t.receiver == Some(account) && t.agent == Some(agent)
        && t.sender.Some? && t.sender.value < |db'.accounts|
        && db'.accounts[t.sender.value].owner == db.agents[agent].user)
    && db'.agentTxns == db.agentTxns + [AgentTransaction(|db.transactions|, agent, db.accounts[account].owner, CustomerDeposit, 0)]
    && db'.notifications == db.notifications + [Notification(db.accounts[account].owner, Sms, Some(|db.transactions|))]
    && db'.users == db.users
    && db'.phoneLines == db.phoneLines
    && db'.limits == db.limits
  }

  /**
   * The atomic block of `initial_deposit`: fetch or create the agent's own
   * account, record the DEPOSIT and its agent row, credit the customer, debit
   * the float and notify the customer. An exception rolls back.
   */
  function CommitDeposit(db: Db, agent: AgentId, account: AccountId, cents: Cents, txId: string): (r: Result<Db, Error>)
    requires agent < |db.agents| && account < |db.accounts|
    ensures r.Ok? ==> DepositApplied(db, r.value, agent, account, cents)
    ensures r.Ok? ==>
      |r.value.transactions| == |db.transactions| + 1 && r.value.transactions[|db.transactions|].txId == txId
    ensures (&& (AccountOf(db, db.agents[agent].user).Some?
                 || AccountNumberFree(db.accounts, AgentAccountNumber(db.agents[agent])))
             && TxIdFree(db.transactions, txId))
              ==> r.Ok?
  {
    var g := db.agents[agent];
    match GetOrCreateAccount(db, g.user, AgentAccountNumber(g), "agent")
    case Err(c) => Err(DbIntegrity(c))
    case Ok((db1, agentAccount)) =>
      assert db1 == db.(accounts := db1.accounts);
      assert |db.accounts| <= |db1.accounts| <= |db.accounts| + 1 && db1.accounts[..|db.accounts|] == db.accounts;
      var txn := Transaction(txId, Deposit, Some(agentAccount), Some(account), Some(agent), cents, 0, Completed);
      match InsertTransaction(db1, txn, SenderNotNull)
      case Err(c) => Err(DbIntegrity(c))
      case Ok((db2, t)) =>
        var customer := db.accounts[account];
        var db3 := AppendAgentTxn(db2, AgentTransaction(t, agent, customer.owner, CustomerDeposit, 0));
        var db4 := db3.(accounts := db3.accounts[account := customer.(balance := customer.balance + cents)]);
        var db5 := db4.(agents := db4.agents[agent := g.(floatBalance := g.floatBalance - cents)]);
        Ok(AppendNotification(db5, Notification(customer.owner, Sms, Some(t))))
  }

  /**
   * `initial_deposit` on a POST: the account must exist and hold nothing,
   * the form must pass, the agent's float must cover the amount and the
   * first active DEPOSIT limit, if any, must admit it. Then the atomic block
   * runs.
   */
  function InitialDeposit(db: Db, agent: AgentId, account: AccountId, amount: Dec, uuidHex: string): (r: Result<Db, Error>)
    requires IsUuidHex(uuidHex)
    ensures IsActiveAgent(db, agent) && account < |db.accounts| && db.accounts[account].balance > 0 ==>
      r == Err(AccountHasFunds)
    ensures (DepositRequestAccepted(db, agent, account, amount)
             && db.agents[agent].floatBalance < InitialDepositFormClean(amount).value) ==>
      r == Err(InsufficientFloat)
    ensures (DepositRequestAccepted(db, agent, account, amount)
             && db.agents[agent].floatBalance >= InitialDepositFormClean(amount).value
             && !LimitAdmits(db, Deposit, InitialDepositFormClean(amount).value)) ==>
      r.Err? && r.error.OutsideDepositLimit?
    ensures r.Ok? ==> DepositRequestAccepted(db, agent, account, amount)
    ensures r.Ok? ==>
      && |r.value.transactions| == |db.transactions| + 1
      && r.value.transactions[|db.transactions|].txId == GenerateTransactionId(uuidHex)
    ensures r.Ok? ==>
      var cents := InitialDepositFormClean(amount).value;
      && db.agents[agent].floatBalance >= cents
      && LimitAdmits(db, Deposit, cents)
      && DepositApplied(db, r.value, agent, account, cents)
    ensures (&& DepositRequestAccepted(db, agent, account, amount)
             && db.agents[agent].floatBalance >= InitialDepositFormClean(amount).value
             && LimitAdmits(db, Deposit, InitialDepositFormClean(amount).value)
             && (AccountOf(db, db.agents[agent].user).Some?
                 || AccountNumberFree(db.accounts, AgentAccountNumber(db.agents[agent])))
             && TxIdFree(db.transactions, GenerateTransactionId(uuidHex)))
              ==> r.Ok?
  {
    if !IsActiveAgent(db, agent) then Err(NotAgent)
    else if account >= |db.accounts| then Err(NotFound)
    else if db.accounts[account].balance > 0 then Err(AccountHasFunds)
    else
      match InitialDepositFormClean(amount)
      case Err(e) => Err(InvalidForm(e))
      case Ok(cents) =>
        if db.agents[agent].floatBalance < cents then Err(InsufficientFloat)
        else
          var limit := FirstActiveLimit(db, Deposit);
          if limit.Some? && (cents < db.limits[limit.value].minAmount || cents > db.limits[limit.value].maxAmount) then
            Err(OutsideDepositLimit(db.limits[limit.value].minAmount, db.limits[limit.value].maxAmount))
          else
            CommitDeposit(db, agent, account, cents, GenerateTransactionId(uuidHex))
  }
}

=== FILE: wrappers.dfy ===
/** The optional and fallible values used throughout the ledger model. */
module Wrappers {

  /** A value that may be absent: a nullable column, a `.first()` on an empty query. */
  datatype Option<+T> = None | Some(value: T)

  /** Either a value or the error that stopped the operation. */
  datatype Result<+T, +E> = Ok(value: T) | Err(error: E)
}
